=== FILE: README.md ===
# pdf2html-web: the conversion request and the retention sweep

pdf2html-web is a small web service. A client posts a PDF and conversion options
as a multipart form to `/api/convert`. The service stages the upload, runs the
external converter `pdf2htmlEX` into a per-task output directory, and answers
with a JSON `ConvertResponse`. A background loop deletes task directories and
leftover uploads once they are older than three hours.

This project models that core in Dafny and proves properties of the model:

- `common.dfy`, module `Common`: Rust's `Option` and substring search.
- `text.dfy`, module `Text`: the standard-library text operations the handler
  relies on, written out. These are `str::trim` (Unicode `White_Space`),
  `u32::from_str`, `u32::to_string` and `str::replace`.
- `options.dfy`, module `Options`: the loop over multipart parts that fills
  `ConvertOptions` and records the staged upload.
- `invocation.dfy`, module `Invocation`: the `pdf2htmlEX` argument vector and
  its omission policy. It also has a reader that turns an argument vector back
  into the settings the converter runs with.
- `artifact.dfy`, module `Artifact`: the upload and output roots, the output
  file name and the URL handed back.
- `response.dfy`, module `Response`: the whole `convert_pdf` handler, from the
  payload items to the reply.
- `retention.dfy`, module `Retention`: one pass of `cleanup_old_files`, and when
  the passes happen.

The environment enters as parameters:
- the task id (a UUID in the service);
- the converter (`run`: argument vector to launch result);
- which paths exist after the run (`present`);
- staging-write failures (`stagingError`);
- directory-removal failures (`removeDir`);
- the clock: the two readings of one pass (`nowOut`, `nowUp`), the loop's
  start and the instants of successive passes (`times`, within `slack`);
- `f32` parsing and display for `zoom` (`parseZoom`).

Notes on what the code does, where a reader might expect otherwise:
- A boolean option whose text is neither `true` nor `1` reads as `false`. It
  does not fall back to the default, so `embed_css=yes` turns embedding off.
- `split_pages` starts as `None`, not `false`.
  `Invocation.InitialIsConverterDefault` shows the two give the converter the
  same settings.
- A failure to create the upload, output or task directory is ignored. It is
  not reported as an internal error.
- The output name replaces every `.pdf` and every `.PDF` in the file name. It
  is not an extension swap, and `.Pdf` is left alone.
- The staging path depends only on the sanitized file name. Two tasks that
  upload the same name give the converter the same input path
  (`Response.StagingSharedAcrossTasks`).

## Model

| member | source | states |
|---|---|---|
| Text.Trim | src/main.rs:141 | the definition of `str::trim`: leading, then trailing Unicode whitespace removed; its properties are `Text.TrimBounds` and `Text.TrimEqualsToken` |
| Text.ParseU32 | src/main.rs:151 | the definition of `parse::<u32>()` followed by `.ok()`: an optional single `+`, then one or more ASCII digits whose value fits in 32 bits; its own contract states that a successful parse comes from a non-empty text starting with a digit or `+` |
| Text.TrimBounds | src/main.rs:141 | trimming removes exactly the leading and the trailing whitespace runs; the rest is an unchanged slice whose ends are not whitespace |
| Text.TrimEqualsToken | src/main.rs:171 | the trimmed text equals a token without outer whitespace exactly when the text is that token surrounded by whitespace |
| Text.DecimalDenotes | src/main.rs:266 | a `u32`'s display is a non-empty digit string, without a leading zero unless the number is 0, that denotes the number |
| Text.ParseDecimal | src/main.rs:264-267 | parsing a displayed `u32` gives back the same number |
| Text.ParseRejectsStray | src/main.rs:151 | any character other than a digit or a single leading `+` makes the `u32` parse fail |
| Text.ParseU32Examples | src/main.rs:151 | an empty text, a lone `+` and `-1` fail; `+7` and `007` give 7 |
| Text.ParseU32Range | src/main.rs:151 | 4294967295 parses and 4294967296 overflows, so the accepted range is exactly 32 bits |
| Text.ReplaceAll | src/main.rs:252 | the definition of `str::replace`: a left-to-right scan replacing non-overlapping occurrences; its properties are `Text.ReplaceAbsent`, `Text.ReplaceRemoves` and `Text.ReplaceKeepsAbsent` |
| Text.ReplaceAbsent | src/main.rs:252 | replacing a pattern that does not occur leaves the text unchanged |
| Text.ReplaceRemoves | src/main.rs:252 | after replacing `.pdf` by `.html` (or `.PDF` by `.html`) the pattern occurs nowhere in the result |
| Text.ReplaceKeepsAbsent | src/main.rs:252 | the first replacement does not create an occurrence of the second pattern |
| Options.ApplyPart | src/main.rs:113-236 | the definition of one iteration of the part loop: a `file` part with a file name records the upload, a valid-UTF-8 option part overwrites its field, anything else changes nothing; its properties are `Options.ApplyPartEffect` and `Options.InvalidUtf8Ignored` |
| Options.Decode | src/main.rs:97-238 | the definition of the whole part loop, starting from the initial options; its properties are `Options.DecodeLastWins` and `Options.DecodeIsExpected` |
| Options.FlagTruth | src/main.rs:171 | a boolean part is true exactly when its text is `true` or `1` surrounded by whitespace |
| Options.ApplyPartEffect | src/main.rs:113-238 | one part sets the field it names to the meaning of its text, only when the body is valid UTF-8, and leaves every other field alone; only a `file` part with a file name replaces the upload |
| Options.DecodeLastWins | src/main.rs:99-238 | after all parts, each field holds the meaning of the last valid part with its name, or its initial value when there is none; the upload is the last named `file` part |
| Options.DecodeIsExpected | src/main.rs:97-238 | the whole decoded form, every field and the upload at once, equals a record assembled directly from the last valid part of each name and the last named `file` part |
| Options.UnsentFieldKeepsDefault | src/main.rs:99-110 | a field no valid part names keeps its initial value: embedding on, everything else absent |
| Options.UnparsableNumberClears | src/main.rs:151 | a numeric part whose trimmed text is not a `u32` clears the field, whatever it held before |
| Options.UnknownPartsIgnored | src/main.rs:234-236 | dropping every part with an unknown name leaves the decoded form unchanged |
| Options.InvalidUtf8Ignored | src/main.rs:170-172 | an option part whose body is not valid UTF-8 leaves the form unchanged |
| Invocation.BuildArgs | src/main.rs:254-299 | the definition of the argument vector; its properties are the `Invocation` lemmas below, chief among them `Invocation.ArgsRoundTrip` |
| Invocation.ArgsShape | src/main.rs:254-299 | the argument vector is `--dest-dir`, the task directory and the input, then one flag and value pair per emitted option in the fixed flag order; its length is 3 plus twice the number of pairs |
| Invocation.ArgsCarry | src/main.rs:260-299 | a flag and value pair is on the command line exactly when the omission table gives that value for that flag |
| Invocation.EmbedFlagsOnlyWhenDisabled | src/main.rs:272-279 | `--embed-css 0` and `--embed-font 0` appear exactly when their option is `Some(false)` |
| Invocation.EmbedMediaOnlyWhenDisabled | src/main.rs:280-287 | `--embed-image 0` and `--embed-javascript 0` appear exactly when their option is `Some(false)` |
| Invocation.SplitOnlyWhenEnabled | src/main.rs:288-291 | `--split-pages 1` appears exactly when splitting is `Some(true)` |
| Invocation.ArgsHead | src/main.rs:254-258 | every command line starts with `--dest-dir`, the task's output directory and the staged input, whatever the options |
| Invocation.ZoomFlagWhenPresent | src/main.rs:260-263 | `--zoom` appears exactly when the zoom option is present, with its text |
| Invocation.NumericFlagsWhenPresent | src/main.rs:264-271 | `--fit-width` and `--fit-height` appear exactly when their option is present, with its decimal value |
| Invocation.FirstPageFlagWhenPresent | src/main.rs:292-295 | `--first-page` appears exactly when the first-page option is present, with its decimal value |
| Invocation.LastPageFlagWhenPresent | src/main.rs:296-299 | `--last-page` appears exactly when the last-page option is present, with its decimal value |
| Invocation.InitialArgs | src/main.rs:254-258 | the initial options give the bare three-element command line |
| Invocation.ArgsRoundTrip | src/main.rs:254-299 | reading the argument vector back gives the task directory, the input and the options' effective settings, so nothing is lost or misread |
| Invocation.InitialIsConverterDefault | src/main.rs:99-110 | the initial options ask the converter for exactly its own defaults |
| Artifact.OutputFilename | src/main.rs:252 | the definition of the output name as the two chained replacements; its properties are the `Artifact.OutputFilename*` lemmas |
| Artifact.OutputFilenameClean | src/main.rs:252 | the output name contains neither `.pdf` nor `.PDF` |
| Artifact.OutputFilenameKeepsOthers | src/main.rs:252 | a name containing neither pattern is its own output name |
| Artifact.OutputFilenameIdempotent | src/main.rs:252 | deriving the output name of an output name changes nothing |
| Artifact.OutputFilenameGlobal | src/main.rs:252 | every occurrence is replaced: `a.pdf.pdf` becomes `a.html.html` |
| Artifact.OutputFilenameCaseSensitive | src/main.rs:252 | `.Pdf` is neither pattern, so `x.Pdf` is unchanged |
| Artifact.UrlServesArtifact | src/main.rs:312-317 | read as a bare path prefix (no percent-encoding, no fragment), the returned URL maps under the `/output` route to exactly the path whose existence decided success |
| Artifact.WorkspacesDisjoint | src/main.rs:94-95 | distinct task ids without `/` give output directories that do not contain each other's artifacts |
| Response.HandleConvert | src/main.rs:88-337 | the definition of the handler from payload items to reply; its properties are `Response.HandleCoherent`, `Response.SuccessIff` and `Response.LaunchedIff` |
| Response.FirstAbort | src/main.rs:113-131 | the definition of the early exits of the part loop: a broken item is a 400 and a failed staging write of a named `file` part a 500; its properties are `Response.AbortIsFirst`, `Response.AbortOnStagingFailure`, `Response.NoAbortWhenClean` and `Response.AbortIsError` |
| Response.Classify | src/main.rs:310-337 | the definition of the reply once the converter was launched; its properties are `Response.ClassifyOutcome`, `Response.FailureMessages` and `Response.ExitStatusIgnored` |
| Response.AbortOnStagingFailure | src/main.rs:119-130 | the first named `file` part whose staging file cannot be created or written, after clean items, ends the request with a 500 carrying the error's text |
| Response.AbortIsFirst | src/main.rs:113-114 | the first broken item, after clean ones, ends the request with a 400 carrying its error text |
| Response.NoAbortWhenClean | src/main.rs:113-131 | a payload without broken items, whose `file` parts that name a file all stage without error, is read to its end, every part in order; other parts are never staged, so their paths do not matter |
| Response.AbortIsError | src/main.rs:123-129 | an early abort is always an error reply, never a 200 |
| Response.HandleCoherent | src/main.rs:240-337 | in every reply, `success`, status 200, the URL and the file name are present together or absent together |
| Response.SuccessIff | src/main.rs:310-319 | the handler succeeds exactly when the payload was clean, a file was uploaded, the converter started and the expected page exists; a success carries "Conversion successful", the derived file name and the URL `/output/<task>/<derived name>`, which maps under the static route's prefix to the checked path |
| Response.LaunchedIff | src/main.rs:113-337 | the converter is launched exactly when the payload was clean and named a file; otherwise neither the converter nor the file system can change the reply, and if it is launched the reply classifies what the converter did with exactly the built arguments and whether the page derived from the upload's name exists |
| Response.NoUploadRejected | src/main.rs:240-250 | without an upload the reply is 400 "No PDF file uploaded", whatever the converter and file system would do |
| Response.ConverterSeesForm | src/main.rs:254-306 | the converter is asked to write into the task's directory, read the staged upload, and use the decoded options' settings |
| Response.ReplyDependsOnlyOnLaunch | src/main.rs:301-337 | the reply depends on the converter only through its result for the built arguments, and on the file system only through the expected page |
| Response.ExitStatusIgnored | src/main.rs:310-313 | the converter's exit status never changes the reply |
| Response.FailureMessages | src/main.rs:320-336 | a missing page gives a 500 whose message is exactly "Conversion failed. stderr: " followed by the error stream, " stdout: " and the output stream; a launch failure gives a 500 whose message is "Failed to execute pdf2htmlEX: " followed by the error |
| Response.ClassifyOutcome | src/main.rs:310-337 | the reply is a JSON body that reports success exactly when the converter started and the page exists; a success is a 200 carrying the file name and the `/output/<task>/<file>` URL, anything else is a 500 with neither |
| Response.StagingSharedAcrossTasks | src/main.rs:120-122 | the converter's input path depends only on the uploaded name, not on the task |
| Response.StagedNeverArtifact | src/main.rs:308-313 | removing the staged upload cannot remove the page whose existence is checked next |
| Retention.Stale | src/main.rs:52-53 | the definition of "older than three hours": `duration_since` succeeds and its whole seconds exceed 10800; its properties are `Retention.StaleIff` and its corollaries |
| Retention.DirExpired | src/main.rs:47-53 | the definition of an expired task directory: a readable directory entry whose creation time, or else modification time, is stale |
| Retention.FileExpired | src/main.rs:70-76 | the definition of an expired upload: a readable regular-file entry whose modification time is stale |
| Retention.SweepOutputRoot | src/main.rs:45-65 | removal is attempted on exactly the expired task directories, in listing order; each outcome reports its own success or error, and a failure does not stop the sweep |
| Retention.SweepUploadRoot | src/main.rs:68-85 | exactly the expired regular files of the upload root are removed, in listing order |
| Retention.CleanupPass | src/main.rs:42-86 | a pass sweeps the output root at the first clock reading and then the upload root at a second reading taken after the first sweep; the directories attempted and the files removed are exactly the expired ones at their own reading |
| Retention.StaleIff | src/main.rs:52-53 | an item is stale exactly when at least 10801 whole seconds have passed since its timestamp |
| Retention.ThresholdIsStrict | src/main.rs:16 | an item exactly 10800 seconds old, or younger than 10801 seconds, is kept; one 10801 seconds old is removed |
| Retention.FutureKept | src/main.rs:52 | a timestamp in the future is never stale |
| Retention.StaleMonotone | src/main.rs:53 | an item stale at one instant is stale at every later one |
| Retention.ExpiredDirsExactly | src/main.rs:47-53 | a path is removed from the output root exactly when a listed entry at that path is an expired directory |
| Retention.ExpiredFilesExactly | src/main.rs:70-76 | a path is removed from the upload root exactly when a listed entry at that path is an expired regular file |
| Retention.SweepsSeparateKinds | src/main.rs:49-72 | the output sweep only removes directories, the upload sweep only regular files |
| Retention.StampChoice | src/main.rs:51-74 | a directory with a creation time expires exactly when that time is stale, one without expires exactly when its modification time is stale, and an upload expires exactly when its modification time is stale, whatever its creation time |
| Retention.ExpiredDirsGrow | src/main.rs:53 | a later pass removes every directory an earlier pass would have |
| Retention.PassesSpaced | src/main.rs:42-46 | because each ten-minute sleep starts after the previous pass ends, pass `k` reads the clock at least `k + 1` intervals after the loop started |
| Retention.FirstRemovingPass | src/main.rs:42-53 | on any schedule whose consecutive passes are one interval plus at most `slack` apart, a directory stamped after the loop started is removed by the first pass at least 10801 seconds later, by no earlier pass, and that pass comes less than 10801 seconds plus one interval plus `slack` after the stamp |

## Left out

- Multipart framing and content-disposition parsing are not modelled. The
  payload arrives as a sequence of complete parts or transport errors
  (`Response.Item`).
- Staging writes are not modelled. The payload is a sequence of items, and the
  source's outcomes map onto it as follows:
  - `Item.Broken` stands for an error reading the next item (line 114), a
    chunk error inside an option part (lines 137-227), or a chunk error inside
    a named `file` part before any staging failure (line 127). Each of these is
    a 400.
  - A named `file` part whose staging file cannot be created (line 123), or
    whose write fails (line 128) before any chunk error, is a `Received` part
    for which `stagingError` of its staged path reports the error. That is a
    500.
  - Chunk errors in a part with an unknown name are discarded (line 235), so
    such a part is a `Received` part. So is a `file` part without a file name,
    whose chunks its own arm never reads.
- UTF-8 decoding of option bodies is not modelled. A body is either valid text
  or `NotUtf8`.
- `sanitize_filename::sanitize` is not modelled. A part's file name is taken
  as already sanitized, and lemmas that need a name without `/` require it.
- Parsing and displaying `f32` for `zoom` are left out (floating point). They
  are the `parseZoom` parameter, and `ConvertOptions.zoom` holds the text the
  converter receives.
- Running `pdf2htmlEX` is a parameter: process launch, output capture and
  lossy UTF-8 decoding of its output. So is the file system's answer to
  "does the page exist".
- `create_dir_all` calls are not modelled, because the handler ignores their
  results.
- Removing the staged upload after the run is not modelled. Its effect enters
  only through `present`.
- UUID generation is not modelled. The task id is a parameter.
- Concurrent requests are not modelled. That includes two requests racing on
  one staging path.
- The sweep running alongside request handlers is not modelled. The sweep
  takes no lock, the task directory is created when the request arrives
  (line 94), and neither the upload nor the converter has a time-out. So a
  request that lasts more than three hours can lose its task directory, and a
  conversion that runs that long can lose its staged upload. The model sees
  such a loss only through the `present` parameter. The age threshold it does
  guarantee is `Retention.FirstRemovingPass`: nothing is removed by a pass
  before it is more than three hours old.
- Serializing the reply to JSON is not modelled, and neither is actix's exact
  error-page format. An aborted request is `ErrorText` with the error's text.
- Artifact.UrlServesArtifact: the static route is modelled as a prefix
  mapping only. It does not model percent-decoding, path normalization or the
  directory listing. The handler does not percent-encode the name in the URL
  either, so a name containing `#` (which sanitizing keeps) yields a URL whose
  fragment is cut off by the client, and `%` sequences are decoded by the
  route; for such names the returned URL does not reach the checked page.
- The root static route (`/app/static`) is not modelled.
- Logging is not modelled.
- The endless sleep-and-sweep loop is not modelled as a loop. It is one
  `CleanupPass` plus a `Schedule` of pass instants: each at least one interval
  after the previous one (the sleep starts once the previous pass is done) and
  at most `slack` later than that. `slack` is a parameter standing for a
  pass's own duration plus timer lateness; the model does not bound it.
- Retention.FirstRemovingPass: the wall clock is taken to agree with the
  sleep timer. `SystemTime` can jump (the sleep uses a monotonic clock), and a
  jump would move the pass instants outside the schedule.
- `read_dir` listings, entry kinds and timestamps are inputs, with times as
  nanoseconds since the epoch.
- Retention.SweepUploadRoot: a failing `remove_file` is not modelled apart from
  a success. The source ignores the failure and logs the path as cleaned
  either way.
- Artifact.WorkspacesDisjoint requires task ids without `/`. The service's
  UUID text has none, but the model does not generate UUIDs.

=== FILE: artifact.dfy ===
/**
 Where a task's files live: the staged upload, the task's output directory,
 the name the converted page is expected under, and the URL handed back.
 */
module Artifact {
  import opened Common
  import opened Text

  const UploadDir := "/tmp/pdf2html"
  const OutputDir := "/tmp/pdf2html/output"

  /**
   `original_filename.replace(".pdf", ".html").replace(".PDF", ".html")`:
   every occurrence is replaced, not only a trailing extension, and other
   spellings such as `.Pdf` are left alone.
   */
  function OutputFilename(name: string): string
  {
    ReplaceAll(ReplaceAll(name, ".pdf", ".html"), ".PDF", ".html")
  }

  /** The staging path of an upload: keyed by the sanitized file name alone. */
  function StagedPath(name: string): string
  {
    UploadDir + "/" + name
  }

  function TaskOutputDir(taskId: string): string
  {
    OutputDir + "/" + taskId
  }

  /** Where the converted page must exist for the task to count as a success. */
  function ArtifactPath(taskId: string, outputName: string): string
  {
    TaskOutputDir(taskId) + "/" + outputName
  }

  function HtmlUrl(taskId: string, outputName: string): string
  {
    "/output/" + taskId + "/" + outputName
  }

  /** The file the static route `/output` (rooted at the output directory) serves for a URL path. */
  function ServedPath(url: string): Option<string>
  {
    if "/output/" <= url then Some(OutputDir + "/" + url[|"/output/"|..]) else None
  }

  predicate NoSlash(t: string)
  {
    forall k | 0 <= k < |t| :: t[k] != '/'
  }

  /** The output name contains neither `.pdf` nor `.PDF`. */
  lemma OutputFilenameClean(name: string)
    ensures !Contains(OutputFilename(name), ".pdf")
    ensures !Contains(OutputFilename(name), ".PDF")
  {
    var once := ReplaceAll(name, ".pdf", ".html");
    PatternsDotLed();
    ReplaceRemoves(name, ".pdf", ".html");
    ReplaceKeepsAbsent(once, ".PDF", ".pdf", ".html");
    ReplaceRemoves(once, ".PDF", ".html");
  }

  /** A name without `.pdf` or `.PDF` is its own output name. */
  lemma OutputFilenameKeepsOthers(name: string)
    requires !Contains(name, ".pdf") && !Contains(name, ".PDF")
    ensures OutputFilename(name) == name
  {
    ReplaceAbsent(name, ".pdf", ".html");
    ReplaceAbsent(name, ".PDF", ".html");
  }

  /** Deriving the output name twice changes nothing more. */
  lemma OutputFilenameIdempotent(name: string)
    ensures OutputFilename(OutputFilename(name)) == OutputFilename(name)
  {
    OutputFilenameClean(name);
    OutputFilenameKeepsOthers(OutputFilename(name));
  }

  /** The three patterns are dot-led, and `.html` starts with neither `.pdf` nor `.PDF`. */
  lemma PatternsDotLed()
    ensures DotLed(".pdf") && DotLed(".PDF") && DotLed(".html")
    ensures ".html"[..4] != ".pdf" && ".html"[..4] != ".PDF"
  {
    assert ".html"[1] == 'h';
  }

  /** Replacement is global: both occurrences of `.pdf` are rewritten. */
  lemma OutputFilenameGlobal()
    ensures OutputFilename("a.pdf.pdf") == "a.html.html"
  {
    var s := "a.pdf.pdf";
    assert s[..4] != ".pdf" by { assert s[0] == 'a'; }
    assert s[1..][..4] == ".pdf";
    assert s[5..][..4] == ".pdf";
    assert ReplaceAll(s[9..], ".pdf", ".html") == "";
    assert ReplaceAll(s[5..], ".pdf", ".html") == ".html";
    assert ReplaceAll(s[1..], ".pdf", ".html") == ".html.html";
    assert ReplaceAll(s, ".pdf", ".html") == "a.html.html";
    var t := "a.html.html";
    PatternsDotLed();
    forall i | 0 <= i <= |s|
      ensures !OccursAt(s, ".PDF", i)
    {
      if i + 4 <= |s| {
        assert s[i + 1] != 'P';
      }
    }
    ReplaceKeepsAbsent(s, ".pdf", ".PDF", ".html");
    ReplaceAbsent(t, ".PDF", ".html");
  }

  /** Replacement is case-sensitive: `.Pdf` is neither pattern. */
  lemma OutputFilenameCaseSensitive()
    ensures OutputFilename("x.Pdf") == "x.Pdf"
  {
    var s := "x.Pdf";
    forall i | 0 <= i <= |s|
      ensures !OccursAt(s, ".pdf", i) && !OccursAt(s, ".PDF", i)
    {
      if i + 4 <= |s| {
        var w := s[i..i + 4];
        if i == 0 {
          assert w[0] == 'x';
        } else {
          assert i == 1 && w[1] == 'P' && w[2] == 'd';
        }
      }
    }
    OutputFilenameKeepsOthers(s);
  }

  /** The URL handed back is served from exactly the path whose existence was checked. */
  lemma UrlServesArtifact(taskId: string, outputName: string)
    ensures ServedPath(HtmlUrl(taskId, outputName)) == Some(ArtifactPath(taskId, outputName))
  {
    var url := HtmlUrl(taskId, outputName);
    assert url == "/output/" + (taskId + "/" + outputName);
    assert url[..|"/output/"|] == "/output/";
    assert url[|"/output/"|..] == taskId + "/" + outputName;
    assert "/output/" <= url;
    assert ArtifactPath(taskId, outputName) == OutputDir + "/" + (taskId + "/" + outputName);
  }

  /**
   Distinct task ids without `/` (a UUID has none) give disjoint workspaces:
   no artifact of one task lies inside another task's output directory.
   */
  lemma WorkspacesDisjoint(t1: string, t2: string, name: string)
    requires t1 != t2 && NoSlash(t1) && NoSlash(t2)
    ensures !(TaskOutputDir(t2) + "/" <= ArtifactPath(t1, name))
  {
    var base := OutputDir + "/";
    var a := ArtifactPath(t1, name);
    var p := TaskOutputDir(t2) + "/";
    assert a == base + (t1 + "/" + name);
    assert p == base + (t2 + "/");
    var k := |base|;
    if |p| <= |a| {
      if |t1| < |t2| {
        assert a[k + |t1|] == '/' != t2[|t1|] == p[k + |t1|];
      } else if |t1| > |t2| {
        assert p[k + |t2|] == '/' != t1[|t2|] == a[k + |t2|];
      } else {
        assert exists j :: 0 <= j < |t1| && t1[j] != t2[j];
        var j :| 0 <= j < |t1| && t1[j] != t2[j];
        assert a[k + j] == t1[j] != t2[j] == p[k + j];
      }
    }
  }
}

=== FILE: common.dfy ===
/**
 Shared vocabulary: Rust's `Option` and substring search on strings.
 */
module Common {

  /** Rust's `Option<T>`. */
  datatype Option<+T> = None | Some(value: T)

  /** `p` occurs in `s` starting at index `i`. */
  predicate OccursAt(s: string, p: string, i: int)
  {
    0 <= i && i + |p| <= |s| && s[i..i + |p|] == p
  }

  /** Rust's `str::contains` for a string pattern. */
  predicate Contains(s: string, p: string)
  {
    exists i | 0 <= i <= |s| :: OccursAt(s, p, i)
  }

  /** Every string contains itself, so `a + p + b` contains `p`. */
  lemma ContainsMiddle(a: string, p: string, b: string)
    ensures Contains(a + p + b, p)
  {
    var s := a + p + b;
    assert s[|a|..|a| + |p|] == p;
    assert OccursAt(s, p, |a|);
  }
}

=== FILE: invocation.dfy ===
/**
 The `pdf2htmlEX` command line built by `convert_pdf`:
 `--dest-dir <task dir> <input> [flag value]...`. A flag is passed only when it
 changes what the converter would do by default: an `embed-*` flag only to turn
 embedding off, `--split-pages` only to turn splitting on, and each numeric
 flag (and `--zoom`) whenever its option is present.
 */
module Invocation {
  import opened Common
  import opened Text
  import opened Options

  /** The flags the builder can emit, in the order it emits them. */
  const FlagOrder: seq<string> := [
    "--zoom", "--fit-width", "--fit-height",
    "--embed-css", "--embed-font", "--embed-image", "--embed-javascript",
    "--split-pages", "--first-page", "--last-page"]

  /** `flag value` when a value is present, nothing otherwise. */
  function Pair(flag: string, value: Option<string>): seq<string>
  {
    if value.Some? then [flag, value.value] else []
  }

  /** A present `u32` option as the converter receives it. */
  function Shown(n: Option<U32>): Option<string>
  {
    if n.Some? then Some(Decimal(n.value)) else None
  }

  /** The argument vector handed to `pdf2htmlEX`, appended to in the source's order. */
  function BuildArgs(o: ConvertOptions, taskOutputDir: string, pdfPath: string): seq<string>
  {
    ["--dest-dir", taskOutputDir, pdfPath]
    + Pair("--zoom", o.zoom)
    + Pair("--fit-width", Shown(o.fitWidth))
    + Pair("--fit-height", Shown(o.fitHeight))
    + (if o.embedCss == Some(false) then ["--embed-css", "0"] else [])
    + (if o.embedFont == Some(false) then ["--embed-font", "0"] else [])
    + (if o.embedImage == Some(false) then ["--embed-image", "0"] else [])
    + (if o.embedJavascript == Some(false) then ["--embed-javascript", "0"] else [])
    + (if o.splitPages == Some(true) then ["--split-pages", "1"] else [])
    + Pair("--first-page", Shown(o.firstPage))
    + Pair("--last-page", Shown(o.lastPage))
  }

  // ---------------------------------------------------------------------------
  // The omission policy as a table
  // ---------------------------------------------------------------------------

  /** The value passed with `flag` for options `o`, or `None` when the flag is omitted. */
  function FlagValue(o: ConvertOptions, flag: string): Option<string>
  {
    match flag
    case "--zoom" => o.zoom
    case "--fit-width" => Shown(o.fitWidth)
    case "--fit-height" => Shown(o.fitHeight)
    case "--embed-css" => if o.embedCss == Some(false) then Some("0") else None
    case "--embed-font" => if o.embedFont == Some(false) then Some("0") else None
    case "--embed-image" => if o.embedImage == Some(false) then Some("0") else None
    case "--embed-javascript" => if o.embedJavascript == Some(false) then Some("0") else None
    case "--split-pages" => if o.splitPages == Some(true) then Some("1") else None
    case "--first-page" => Shown(o.firstPage)
    case "--last-page" => Shown(o.lastPage)
    case _ => None
  }

  /** The `(flag, value)` pairs of `flags` that `o` emits, in the order of `flags`. */
  function EmittedFrom(o: ConvertOptions, flags: seq<string>): seq<(string, string)>
  {
    if |flags| == 0 then []
    else
      var f := flags[|flags| - 1];
      var v := FlagValue(o, f);
      EmittedFrom(o, flags[..|flags| - 1]) + (if v.Some? then [(f, v.value)] else [])
  }

  function Emitted(o: ConvertOptions): seq<(string, string)>
  {
    EmittedFrom(o, FlagOrder)
  }

  /** Pairs laid out one after the other. */
  function Flatten(ps: seq<(string, string)>): (r: seq<string>)
    ensures |r| == 2 * |ps|
  {
    if |ps| == 0 then [] else [ps[0].0, ps[0].1] + Flatten(ps[1..])
  }

  /** The `(flag, value)` pairs that follow the fixed three-element head. */
  function PairsOf(rest: seq<string>): seq<(string, string)>
  {
    if |rest| < 2 then [] else [(rest[0], rest[1])] + PairsOf(rest[2..])
  }

  lemma {:induction false} PairsOfFlatten(ps: seq<(string, string)>)
    ensures PairsOf(Flatten(ps)) == ps
  {
    if |ps| > 0 {
      PairsOfFlatten(ps[1..]);
      var f := Flatten(ps);
      assert f[2..] == Flatten(ps[1..]);
    }
  }

  lemma {:induction false} FlattenAppend(a: seq<(string, string)>, b: seq<(string, string)>)
    ensures Flatten(a + b) == Flatten(a) + Flatten(b)
  {
    if |a| > 0 {
      assert (a + b)[1..] == a[1..] + b;
      FlattenAppend(a[1..], b);
    } else {
      assert a + b == b;
    }
  }

  /** The builder's vector after the chunks of the first `k` flags of the table. */
  function BuiltUpTo(o: ConvertOptions, d: string, i: string, k: nat): seq<string>
    requires k <= |FlagOrder|
  {
    if k == 0 then ["--dest-dir", d, i]
    else BuiltUpTo(o, d, i, k - 1) + Pair(FlagOrder[k - 1], FlagValue(o, FlagOrder[k - 1]))
  }

  /** Extending a prefix of a flag table by one flag appends that flag's chunk, if any. */
  lemma EmittedStep(o: ConvertOptions, flags: seq<string>, k: nat)
    requires 0 < k <= |flags|
    ensures Flatten(EmittedFrom(o, flags[..k]))
         == Flatten(EmittedFrom(o, flags[..k - 1])) + Pair(flags[k - 1], FlagValue(o, flags[k - 1]))
  {
    var f := flags[k - 1];
    var v := FlagValue(o, f);
    assert flags[..k][..k - 1] == flags[..k - 1];
    var tail := if v.Some? then [(f, v.value)] else [];
    FlattenAppend(EmittedFrom(o, flags[..k - 1]), tail);
    assert Flatten(tail) == Pair(f, v);
  }

  lemma {:induction false} BuiltUpToLayout(o: ConvertOptions, d: string, i: string, k: nat)
    requires k <= |FlagOrder|
    ensures BuiltUpTo(o, d, i, k) == ["--dest-dir", d, i] + Flatten(EmittedFrom(o, FlagOrder[..k]))
  {
    if k == 0 {
      assert FlagOrder[..0] == [];
    } else {
      BuiltUpToLayout(o, d, i, k - 1);
      EmittedStep(o, FlagOrder, k);
    }
  }

  /** Each entry of the table, as the chunk the builder appends for it. */
  lemma TableChunks(o: ConvertOptions)
    ensures Pair(FlagOrder[0], FlagValue(o, FlagOrder[0])) == Pair("--zoom", o.zoom)
    ensures Pair(FlagOrder[1], FlagValue(o, FlagOrder[1])) == Pair("--fit-width", Shown(o.fitWidth))
    ensures Pair(FlagOrder[2], FlagValue(o, FlagOrder[2])) == Pair("--fit-height", Shown(o.fitHeight))
    ensures Pair(FlagOrder[3], FlagValue(o, FlagOrder[3]))
         == if o.embedCss == Some(false) then ["--embed-css", "0"] else []
    ensures Pair(FlagOrder[4], FlagValue(o, FlagOrder[4]))
         == if o.embedFont == Some(false) then ["--embed-font", "0"] else []
    ensures Pair(FlagOrder[5], FlagValue(o, FlagOrder[5]))
         == if o.embedImage == Some(false) then ["--embed-image", "0"] else []
    ensures Pair(FlagOrder[6], FlagValue(o, FlagOrder[6]))
         == if o.embedJavascript == Some(false) then ["--embed-javascript", "0"] else []
    ensures Pair(FlagOrder[7], FlagValue(o, FlagOrder[7]))
         == if o.splitPages == Some(true) then ["--split-pages", "1"] else []
    ensures Pair(FlagOrder[8], FlagValue(o, FlagOrder[8])) == Pair("--first-page", Shown(o.firstPage))
    ensures Pair(FlagOrder[9], FlagValue(o, FlagOrder[9])) == Pair("--last-page", Shown(o.lastPage))
  {
  }

  /** The builder appends the table's chunks one flag at a time. */
  lemma BuildArgsUnrolled(o: ConvertOptions, d: string, i: string)
    ensures BuildArgs(o, d, i) == BuiltUpTo(o, d, i, 10)
  {
    TableChunks(o);
    var a0 := ["--dest-dir", d, i];
    var a1 := a0 + Pair("--zoom", o.zoom);
    assert BuiltUpTo(o, d, i, 1) == a1;
    var a2 := a1 + Pair("--fit-width", Shown(o.fitWidth));
    assert BuiltUpTo(o, d, i, 2) == a2;
    var a3 := a2 + Pair("--fit-height", Shown(o.fitHeight));
    assert BuiltUpTo(o, d, i, 3) == a3;
    var a4 := a3 + (if o.embedCss == Some(false) then ["--embed-css", "0"] else []);
    assert BuiltUpTo(o, d, i, 4) == a4;
    var a5 := a4 + (if o.embedFont == Some(false) then ["--embed-font", "0"] else []);
    assert BuiltUpTo(o, d, i, 5) == a5;
    var a6 := a5 + (if o.embedImage == Some(false) then ["--embed-image", "0"] else []);
    assert BuiltUpTo(o, d, i, 6) == a6;
    var a7 := a6 + (if o.embedJavascript == Some(false) then ["--embed-javascript", "0"] else []);
    assert BuiltUpTo(o, d, i, 7) == a7;
    var a8 := a7 + (if o.splitPages == Some(true) then ["--split-pages", "1"] else []);
    assert BuiltUpTo(o, d, i, 8) == a8;
    var a9 := a8 + Pair("--first-page", Shown(o.firstPage));
    assert BuiltUpTo(o, d, i, 9) == a9;
  }

  /** The builder emits the fixed head followed by exactly the table's pairs, in table order. */
  lemma ArgsLayout(o: ConvertOptions, d: string, i: string)
    ensures BuildArgs(o, d, i) == ["--dest-dir", d, i] + Flatten(Emitted(o))
  {
    BuildArgsUnrolled(o, d, i);
    BuiltUpToLayout(o, d, i, 10);
    assert FlagOrder[..10] == FlagOrder;
  }

  /** A pair is emitted exactly when its flag is one of `flags` and the table gives its value. */
  lemma {:induction false} EmittedMembers(o: ConvertOptions, flags: seq<string>, f: string, v: string)
    ensures (f, v) in EmittedFrom(o, flags) <==> f in flags && FlagValue(o, f) == Some(v)
  {
    if |flags| > 0 {
      var init := flags[..|flags| - 1];
      EmittedMembers(o, init, f, v);
      assert flags == init + [flags[|flags| - 1]];
      assert f in flags <==> f in init || f == flags[|flags| - 1];
    }
  }

  /**
   The emitted flags are a subsequence of `flags`: the `a`-th emitted pair
   carries `flags[idx[a]]`, with `idx` strictly increasing.
   */
  lemma {:induction false} EmittedPositions(o: ConvertOptions, flags: seq<string>) returns (idx: seq<nat>)
    ensures |idx| == |EmittedFrom(o, flags)|
    ensures forall a | 0 <= a < |idx| :: idx[a] < |flags| && EmittedFrom(o, flags)[a].0 == flags[idx[a]]
    ensures forall a, b | 0 <= a < b < |idx| :: idx[a] < idx[b]
  {
    if |flags| == 0 {
      idx := [];
    } else {
      var n := |flags| - 1;
      var init := flags[..n];
      var prev := EmittedPositions(o, init);
      var e := EmittedFrom(o, flags);
      var ep := EmittedFrom(o, init);
      if FlagValue(o, flags[n]).Some? {
        idx := prev + [n];
        assert e == ep + [(flags[n], FlagValue(o, flags[n]).value)];
        forall a | 0 <= a < |idx|
          ensures idx[a] < |flags| && e[a].0 == flags[idx[a]]
        {
          if a < |prev| {
            assert e[a] == ep[a];
            assert init[prev[a]] == flags[prev[a]];
          }
        }
      } else {
        idx := prev;
        assert e == ep;
        forall a | 0 <= a < |idx|
          ensures e[a].0 == flags[idx[a]]
        {
          assert init[prev[a]] == flags[prev[a]];
        }
      }
    }
  }

  /**
   The shape of the command line: the fixed head `--dest-dir <dir> <input>`,
   then one flag/value pair per option the table emits, the flags taken from
   the fixed order and kept in that order.
   */
  lemma ArgsShape(o: ConvertOptions, d: string, i: string) returns (idx: seq<nat>)
    ensures var r := BuildArgs(o, d, i);
      && |r| == 3 + 2 * |Emitted(o)|
      && r[..3] == ["--dest-dir", d, i]
      && PairsOf(r[3..]) == Emitted(o)
    ensures |idx| == |Emitted(o)|
    ensures forall a | 0 <= a < |idx| :: idx[a] < |FlagOrder| && Emitted(o)[a].0 == FlagOrder[idx[a]]
    ensures forall a, b | 0 <= a < b < |idx| :: idx[a] < idx[b]
  {
    ArgsLayout(o, d, i);
    var r := BuildArgs(o, d, i);
    assert r[3..] == Flatten(Emitted(o));
    PairsOfFlatten(Emitted(o));
    idx := EmittedPositions(o, FlagOrder);
  }

  /** The converter is told the task directory and the input in the second and third place. */
  lemma ArgsHead(o: ConvertOptions, d: string, i: string)
    ensures |BuildArgs(o, d, i)| >= 3
    ensures BuildArgs(o, d, i)[0] == "--dest-dir" && BuildArgs(o, d, i)[1] == d && BuildArgs(o, d, i)[2] == i
  {
    var _ := ArgsShape(o, d, i);
    var r := BuildArgs(o, d, i);
    assert r[2] == r[..3][2];
  }

  /** `flag value` is on the command line exactly when the table says so. */
  lemma ArgsCarry(o: ConvertOptions, d: string, i: string, f: string, v: string)
    ensures (f, v) in PairsOf(BuildArgs(o, d, i)[3..]) <==> f in FlagOrder && FlagValue(o, f) == Some(v)
  {
    var _ := ArgsShape(o, d, i);
    EmittedMembers(o, FlagOrder, f, v);
  }

  /** The `k`-th flag of the table is on the command line exactly when the table gives it a value. */
  lemma FlagCarried(o: ConvertOptions, d: string, i: string, k: nat, v: string)
    requires k < |FlagOrder|
    ensures (FlagOrder[k], v) in PairsOf(BuildArgs(o, d, i)[3..]) <==> FlagValue(o, FlagOrder[k]) == Some(v)
  {
    ArgsCarry(o, d, i, FlagOrder[k], v);
  }

  /** `--embed-css 0` and `--embed-font 0` appear exactly when that option is `Some(false)`. */
  lemma EmbedFlagsOnlyWhenDisabled(o: ConvertOptions, d: string, i: string)
    ensures var ps := PairsOf(BuildArgs(o, d, i)[3..]);
      && (("--embed-css", "0") in ps <==> o.embedCss == Some(false))
      && (("--embed-font", "0") in ps <==> o.embedFont == Some(false))
  {
    FlagCarried(o, d, i, 3, "0");
    FlagCarried(o, d, i, 4, "0");
  }

  /** `--embed-image 0` and `--embed-javascript 0` appear exactly when that option is `Some(false)`. */
  lemma EmbedMediaOnlyWhenDisabled(o: ConvertOptions, d: string, i: string)
    ensures var ps := PairsOf(BuildArgs(o, d, i)[3..]);
      && (("--embed-image", "0") in ps <==> o.embedImage == Some(false))
      && (("--embed-javascript", "0") in ps <==> o.embedJavascript == Some(false))
  {
    FlagCarried(o, d, i, 5, "0");
    FlagCarried(o, d, i, 6, "0");
  }

  /** `--split-pages 1` appears exactly when splitting was asked for explicitly. */
  lemma SplitOnlyWhenEnabled(o: ConvertOptions, d: string, i: string)
    ensures ("--split-pages", "1") in PairsOf(BuildArgs(o, d, i)[3..]) <==> o.splitPages == Some(true)
  {
    FlagCarried(o, d, i, 7, "1");
  }

  /** `--zoom` appears, with the option's text, exactly when the option is present. */
  lemma ZoomFlagWhenPresent(o: ConvertOptions, d: string, i: string, v: string)
    ensures ("--zoom", v) in PairsOf(BuildArgs(o, d, i)[3..]) <==> o.zoom == Some(v)
  {
    FlagCarried(o, d, i, 0, v);
  }

  /** A numeric flag appears, with the option's decimal value, exactly when the option is present. */
  lemma NumericFlagsWhenPresent(o: ConvertOptions, d: string, i: string, v: string)
    ensures var ps := PairsOf(BuildArgs(o, d, i)[3..]);
      && (("--fit-width", v) in ps <==> o.fitWidth.Some? && v == Decimal(o.fitWidth.value))
      && (("--fit-height", v) in ps <==> o.fitHeight.Some? && v == Decimal(o.fitHeight.value))
  {
    FlagCarried(o, d, i, 1, v);
    FlagCarried(o, d, i, 2, v);
  }

  /** `--first-page` appears, with the option's decimal value, exactly when the option is present. */
  lemma FirstPageFlagWhenPresent(o: ConvertOptions, d: string, i: string, v: string)
    ensures ("--first-page", v) in PairsOf(BuildArgs(o, d, i)[3..])
      <==> o.firstPage.Some? && v == Decimal(o.firstPage.value)
  {
    FlagCarried(o, d, i, 8, v);
  }

  /** `--last-page` appears, with the option's decimal value, exactly when the option is present. */
  lemma LastPageFlagWhenPresent(o: ConvertOptions, d: string, i: string, v: string)
    ensures ("--last-page", v) in PairsOf(BuildArgs(o, d, i)[3..])
      <==> o.lastPage.Some? && v == Decimal(o.lastPage.value)
  {
    FlagCarried(o, d, i, 9, v);
  }

  /** The initial options produce the bare three-element command line. */
  lemma InitialArgs(d: string, i: string)
    ensures BuildArgs(Initial, d, i) == ["--dest-dir", d, i]
  {
  }

  // ---------------------------------------------------------------------------
  // Reading the command line back: what the converter is asked to do
  // ---------------------------------------------------------------------------

  /** The settings the converter runs with. */
  datatype Settings = Settings(
    zoom: Option<string>,
    fitWidth: Option<U32>,
    fitHeight: Option<U32>,
    embedCss: bool,
    embedFont: bool,
    embedImage: bool,
    embedJavascript: bool,
    splitPages: bool,
    firstPage: Option<U32>,
    lastPage: Option<U32>)

  /** The converter's own defaults: everything embedded, one output file. */
  const ConverterDefaults := Settings(None, None, None, true, true, true, true, false, None, None)

  /** The request the converter receives. */
  datatype Request = Request(destDir: string, input: string, settings: Settings)

  function ReadSwitch(v: string): Option<bool>
  {
    if v == "0" then Some(false) else if v == "1" then Some(true) else None
  }

  /** One `flag value` pair applied to the settings; `None` for an unknown flag or bad value. */
  function ApplyFlag(st: Settings, f: string, v: string): Option<Settings>
  {
    var n := ParseU32(v);
    var b := ReadSwitch(v);
    if f == "--zoom" then Some(st.(zoom := Some(v)))
    else if f == "--fit-width" then (if n.Some? then Some(st.(fitWidth := n)) else None)
    else if f == "--fit-height" then (if n.Some? then Some(st.(fitHeight := n)) else None)
    else if f == "--embed-css" then (if b.Some? then Some(st.(embedCss := b.value)) else None)
    else if f == "--embed-font" then (if b.Some? then Some(st.(embedFont := b.value)) else None)
    else if f == "--embed-image" then (if b.Some? then Some(st.(embedImage := b.value)) else None)
    else if f == "--embed-javascript" then (if b.Some? then Some(st.(embedJavascript := b.value)) else None)
    else if f == "--split-pages" then (if b.Some? then Some(st.(splitPages := b.value)) else None)
    else if f == "--first-page" then (if n.Some? then Some(st.(firstPage := n)) else None)
    else if f == "--last-page" then (if n.Some? then Some(st.(lastPage := n)) else None)
    else None
  }

  function ReadFlags(rest: seq<string>, st: Settings): Option<Settings>
  {
    if |rest| == 0 then Some(st)
    else if |rest| == 1 then None
    else match ApplyFlag(st, rest[0], rest[1])
      case None => None
      case Some(st') => ReadFlags(rest[2..], st')
  }

  /** Reads a vector laid out as the builder lays it out, starting from the converter's defaults. */
  function ReadArgs(args: seq<string>): Option<Request>
  {
    if |args| < 3 || args[0] != "--dest-dir" then None
    else match ReadFlags(args[3..], ConverterDefaults)
      case None => None
      case Some(st) => Some(Request(args[1], args[2], st))
  }

  /** What the options ask of the converter: omitted flags fall back to its defaults. */
  function Effective(o: ConvertOptions): Settings
  {
    Settings(
      o.zoom, o.fitWidth, o.fitHeight,
      o.embedCss != Some(false), o.embedFont != Some(false),
      o.embedImage != Some(false), o.embedJavascript != Some(false),
      o.splitPages == Some(true),
      o.firstPage, o.lastPage)
  }

  /** Reading `a + b` reads `a`, then reads `b` from where `a` left off. */
  lemma {:induction false} ReadAppend(a: seq<string>, b: seq<string>, st: Settings)
    requires |a| % 2 == 0 && ReadFlags(a, st).Some?
    ensures ReadFlags(a + b, st) == ReadFlags(b, ReadFlags(a, st).value)
    decreases |a|
  {
    if |a| > 0 {
      assert (a + b)[2..] == a[2..] + b;
      ReadAppend(a[2..], b, ApplyFlag(st, a[0], a[1]).value);
    } else {
      assert a + b == b;
    }
  }

  lemma ReadNumber(n: Option<U32>)
    ensures n.Some? ==> ParseU32(Shown(n).value) == n
  {
    if n.Some? {
      ParseDecimal(n.value);
    }
  }

  /** A two-element vector is read as one flag/value pair. */
  lemma ReadPair(f: string, v: string, st: Settings)
    ensures ReadFlags([f, v], st) == ApplyFlag(st, f, v)
  {
    assert [f, v][2..] == [];
  }

  /** Reading the value chunks (zoom and the numbers) restores the option. */
  lemma ReadZoomChunk(z: Option<string>, st: Settings)
    requires st.zoom == None
    ensures ReadFlags(Pair("--zoom", z), st) == Some(st.(zoom := z))
  {
    if z.Some? {
      ReadPair("--zoom", z.value, st);
    }
  }

  lemma ReadFitWidthChunk(n: Option<U32>, st: Settings)
    requires st.fitWidth == None
    ensures ReadFlags(Pair("--fit-width", Shown(n)), st) == Some(st.(fitWidth := n))
  {
    ReadNumber(n);
    if n.Some? {
      ReadPair("--fit-width", Decimal(n.value), st);
    }
  }

  lemma ReadFitHeightChunk(n: Option<U32>, st: Settings)
    requires st.fitHeight == None
    ensures ReadFlags(Pair("--fit-height", Shown(n)), st) == Some(st.(fitHeight := n))
  {
    ReadNumber(n);
    if n.Some? {
      ReadPair("--fit-height", Decimal(n.value), st);
    }
  }

  lemma ReadFirstPageChunk(n: Option<U32>, st: Settings)
    requires st.firstPage == None
    ensures ReadFlags(Pair("--first-page", Shown(n)), st) == Some(st.(firstPage := n))
  {
    ReadNumber(n);
    if n.Some? {
      ReadPair("--first-page", Decimal(n.value), st);
    }
  }

  lemma ReadLastPageChunk(n: Option<U32>, st: Settings)
    requires st.lastPage == None
    ensures ReadFlags(Pair("--last-page", Shown(n)), st) == Some(st.(lastPage := n))
  {
    ReadNumber(n);
    if n.Some? {
      ReadPair("--last-page", Decimal(n.value), st);
    }
  }

  /** Reading the switch chunks restores what the converter should do. */
  lemma ReadSwitchChunks(o: ConvertOptions, st: Settings)
    ensures ReadFlags(if o.embedCss == Some(false) then ["--embed-css", "0"] else [], st)
         == Some(if o.embedCss == Some(false) then st.(embedCss := false) else st)
    ensures ReadFlags(if o.embedFont == Some(false) then ["--embed-font", "0"] else [], st)
         == Some(if o.embedFont == Some(false) then st.(embedFont := false) else st)
    ensures ReadFlags(if o.embedImage == Some(false) then ["--embed-image", "0"] else [], st)
         == Some(if o.embedImage == Some(false) then st.(embedImage := false) else st)
    ensures ReadFlags(if o.embedJavascript == Some(false) then ["--embed-javascript", "0"] else [], st)
         == Some(if o.embedJavascript == Some(false) then st.(embedJavascript := false) else st)
    ensures ReadFlags(if o.splitPages == Some(true) then ["--split-pages", "1"] else [], st)
         == Some(if o.splitPages == Some(true) then st.(splitPages := true) else st)
  {
    ReadPair("--embed-css", "0", st);
    ReadPair("--embed-font", "0", st);
    ReadPair("--embed-image", "0", st);
    ReadPair("--embed-javascript", "0", st);
    ReadPair("--split-pages", "1", st);
  }

  /**
   The settings after reading the chunks of the first `k` flags: those flags
   take their value from `e`, the rest still hold the converter's defaults.
   */
  function ReadSoFar(e: Settings, k: nat): Settings
  {
    var d := ConverterDefaults;
    Settings(
      if k > 0 then e.zoom else d.zoom,
      if k > 1 then e.fitWidth else d.fitWidth,
      if k > 2 then e.fitHeight else d.fitHeight,
      if k > 3 then e.embedCss else d.embedCss,
      if k > 4 then e.embedFont else d.embedFont,
      if k > 5 then e.embedImage else d.embedImage,
      if k > 6 then e.embedJavascript else d.embedJavascript,
      if k > 7 then e.splitPages else d.splitPages,
      if k > 8 then e.firstPage else d.firstPage,
      if k > 9 then e.lastPage else d.lastPage)
  }

  /** The chunk of flag number `k` moves the reader from `ReadSoFar(k)` to `ReadSoFar(k + 1)`. */
  lemma ReadChunkAt(o: ConvertOptions, k: nat)
    requires k < |FlagOrder|
    ensures ReadFlags(Pair(FlagOrder[k], FlagValue(o, FlagOrder[k])), ReadSoFar(Effective(o), k))
         == Some(ReadSoFar(Effective(o), k + 1))
  {
    TableChunks(o);
    var e := Effective(o);
    var st := ReadSoFar(e, k);
    if k == 0 {
      ReadZoomChunk(o.zoom, st);
    } else if k == 1 {
      ReadFitWidthChunk(o.fitWidth, st);
    } else if k == 2 {
      ReadFitHeightChunk(o.fitHeight, st);
    } else if k == 8 {
      ReadFirstPageChunk(o.firstPage, st);
    } else if k == 9 {
      ReadLastPageChunk(o.lastPage, st);
    } else {
      ReadSwitchChunks(o, st);
    }
  }

  lemma {:induction false} ReadBuiltUpTo(o: ConvertOptions, d: string, i: string, k: nat)
    requires k <= |FlagOrder|
    ensures |BuiltUpTo(o, d, i, k)| >= 3 && |BuiltUpTo(o, d, i, k)| % 2 == 1
    ensures ReadFlags(BuiltUpTo(o, d, i, k)[3..], ConverterDefaults) == Some(ReadSoFar(Effective(o), k))
  {
    if k > 0 {
      ReadBuiltUpTo(o, d, i, k - 1);
      var prev := BuiltUpTo(o, d, i, k - 1);
      var c := Pair(FlagOrder[k - 1], FlagValue(o, FlagOrder[k - 1]));
      assert (prev + c)[3..] == prev[3..] + c;
      ReadAppend(prev[3..], c, ConverterDefaults);
      ReadChunkAt(o, k - 1);
    } else {
      assert ["--dest-dir", d, i][3..] == [];
    }
  }

  /**
   Round trip: reading the built command line back yields the task directory,
   the input path, and settings in which every omitted flag is the converter's
   default, so omission never changes what the converter does.
   */
  lemma ArgsRoundTrip(o: ConvertOptions, d: string, i: string)
    ensures ReadArgs(BuildArgs(o, d, i)) == Some(Request(d, i, Effective(o)))
  {
    var b := BuiltUpTo(o, d, i, 10);
    ReadBuiltUpTo(o, d, i, 10);
    BuiltUpToHead(o, d, i, 10);
    ReadWithHead(b, d, i);
    assert ReadSoFar(Effective(o), 10) == Effective(o);
    BuildArgsUnrolled(o, d, i);
  }

  /** Every stage of the builder starts with the fixed three-element head. */
  lemma {:induction false} BuiltUpToHead(o: ConvertOptions, d: string, i: string, k: nat)
    requires k <= |FlagOrder|
    ensures |BuiltUpTo(o, d, i, k)| >= 3 && BuiltUpTo(o, d, i, k)[..3] == ["--dest-dir", d, i]
  {
    if k > 0 {
      BuiltUpToHead(o, d, i, k - 1);
      var prev := BuiltUpTo(o, d, i, k - 1);
      assert (prev + Pair(FlagOrder[k - 1], FlagValue(o, FlagOrder[k - 1])))[..3] == prev[..3];
    }
  }

  /** A vector with the builder's head is read as a request for that directory and input. */
  lemma ReadWithHead(args: seq<string>, d: string, i: string)
    requires |args| >= 3 && args[..3] == ["--dest-dir", d, i]
    ensures ReadArgs(args) == match ReadFlags(args[3..], ConverterDefaults)
                              case None => None
                              case Some(st) => Some(Request(d, i, st))
  {
    assert args[0] == args[..3][0];
    assert args[1] == args[..3][1];
    assert args[2] == args[..3][2];
  }

  /** Default options ask the converter for nothing beyond its own defaults. */
  lemma InitialIsConverterDefault()
    ensures Effective(Initial) == ConverterDefaults
  {
  }
}

=== FILE: options.dfy ===
/**
 The option decoder of `convert_pdf`: the multipart body, already split into
 parts, is folded into a `ConvertOptions` record and the name of the staged
 upload. Each option part overwrites its field; an unparsable value never
 rejects the request.
 */
module Options {
  import opened Common
  import opened Text

  /** The body of a non-file part after `String::from_utf8`. */
  datatype Body = Utf8(text: string) | NotUtf8

  /**
   One multipart part: its content-disposition name (`""` when absent), the
   declared file name after `sanitize_filename::sanitize` (when the disposition
   carries one), and its body.
   */
  datatype Part = Part(name: string, filename: Option<string>, body: Body)

  /**
   `ConvertOptions`. `zoom` holds the text the converter receives for the
   parsed `f32`; the numeric fields are `u32`.
   */
  datatype ConvertOptions = ConvertOptions(
    zoom: Option<string>,
    fitWidth: Option<U32>,
    fitHeight: Option<U32>,
    embedCss: Option<bool>,
    embedFont: Option<bool>,
    embedImage: Option<bool>,
    embedJavascript: Option<bool>,
    splitPages: Option<bool>,
    firstPage: Option<U32>,
    lastPage: Option<U32>)

  /**
   What the loop over parts leaves behind: the options and, once a `file` part
   with a file name arrived, the sanitized name it was staged under.
   */
  datatype Form = Form(options: ConvertOptions, upload: Option<string>)

  /** The options `convert_pdf` starts from. */
  const Initial := ConvertOptions(
    zoom := None, fitWidth := None, fitHeight := None,
    embedCss := Some(true), embedFont := Some(true), embedImage := Some(true), embedJavascript := Some(true),
    splitPages := None, firstPage := None, lastPage := None)

  const NumberNames: set<string> := {"fit_width", "fit_height", "first_page", "last_page"}
  const FlagNames: set<string> := {"embed_css", "embed_font", "embed_image", "embed_javascript", "split_pages"}
  const OptionNames: set<string> := {"zoom"} + NumberNames + FlagNames

  /** The boolean reading of a trimmed option value. */
  predicate IsTrueToken(t: string)
  {
    t == "true" || t == "1"
  }

  /**
   One iteration of the `while let Some(item) = payload.next()` loop.
   `parseZoom` is `str::parse::<f32>` followed by `f32::to_string`.
   */
  function ApplyPart(f: Form, p: Part, parseZoom: string -> Option<string>): Form
  {
    var o := f.options;
    if p.name == "file" then
      (if p.filename.Some? then f.(upload := p.filename) else f)
    else if p.name !in OptionNames || p.body.NotUtf8? then
      f
    else
      var t := Trim(p.body.text);
      var o' :=
        if p.name == "zoom" then o.(zoom := parseZoom(t))
        else if p.name == "fit_width" then o.(fitWidth := ParseU32(t))
        else if p.name == "fit_height" then o.(fitHeight := ParseU32(t))
        else if p.name == "embed_css" then o.(embedCss := Some(IsTrueToken(t)))
        else if p.name == "embed_font" then o.(embedFont := Some(IsTrueToken(t)))
        else if p.name == "embed_image" then o.(embedImage := Some(IsTrueToken(t)))
        else if p.name == "embed_javascript" then o.(embedJavascript := Some(IsTrueToken(t)))
        else if p.name == "split_pages" then o.(splitPages := Some(IsTrueToken(t)))
        else if p.name == "first_page" then o.(firstPage := ParseU32(t))
        else o.(lastPage := ParseU32(t));
      f.(options := o')
  }

  /** The whole loop: parts are applied in arrival order. */
  function Decode(parts: seq<Part>, parseZoom: string -> Option<string>): Form
  {
    if |parts| == 0 then Form(Initial, None)
    else ApplyPart(Decode(parts[..|parts| - 1], parseZoom), parts[|parts| - 1], parseZoom)
  }

  // ---------------------------------------------------------------------------
  // A field-by-field view of the record, used to state the decoder's contract
  // ---------------------------------------------------------------------------

  /** The value of one option field, tagged by its kind. */
  datatype FieldValue = Token(z: Option<string>) | Count(n: Option<U32>) | Flag(b: Option<bool>)

  /** The field of `o` that the multipart name `k` addresses. */
  function Field(o: ConvertOptions, k: string): FieldValue
    requires k in OptionNames
  {
    match k
    case "zoom" => Token(o.zoom)
    case "fit_width" => Count(o.fitWidth)
    case "fit_height" => Count(o.fitHeight)
    case "embed_css" => Flag(o.embedCss)
    case "embed_font" => Flag(o.embedFont)
    case "embed_image" => Flag(o.embedImage)
    case "embed_javascript" => Flag(o.embedJavascript)
    case "split_pages" => Flag(o.splitPages)
    case "first_page" => Count(o.firstPage)
    case _ => Count(o.lastPage)
  }

  /** What the value text `s` of a part named `k` means, independently of earlier parts. */
  ghost function Meaning(k: string, s: string, parseZoom: string -> Option<string>): FieldValue
  {
    if k == "zoom" then Token(parseZoom(Trim(s)))
    else if k in NumberNames then Count(ParseU32(Trim(s)))
    else Flag(Some(PaddedToken(s, "true") || PaddedToken(s, "1")))
  }

  /** The text of the last part named `k` whose body is valid UTF-8. */
  function LastText(parts: seq<Part>, k: string): Option<string>
  {
    if |parts| == 0 then None
    else
      var p := parts[|parts| - 1];
      if p.name == k && p.body.Utf8? then Some(p.body.text) else LastText(parts[..|parts| - 1], k)
  }

  /** The file name of the last `file` part that carries one. */
  function LastUpload(parts: seq<Part>): Option<string>
  {
    if |parts| == 0 then None
    else
      var p := parts[|parts| - 1];
      if p.name == "file" && p.filename.Some? then p.filename else LastUpload(parts[..|parts| - 1])
  }

  /** Two records that agree on every field are equal. */
  lemma FieldsDetermineOptions(a: ConvertOptions, b: ConvertOptions)
    requires forall k | k in OptionNames :: Field(a, k) == Field(b, k)
    ensures a == b
  {
    assert Field(a, "zoom") == Field(b, "zoom");
    assert Field(a, "fit_width") == Field(b, "fit_width");
    assert Field(a, "fit_height") == Field(b, "fit_height");
    assert Field(a, "embed_css") == Field(b, "embed_css");
    assert Field(a, "embed_font") == Field(b, "embed_font");
    assert Field(a, "embed_image") == Field(b, "embed_image");
    assert Field(a, "embed_javascript") == Field(b, "embed_javascript");
    assert Field(a, "split_pages") == Field(b, "split_pages");
    assert Field(a, "first_page") == Field(b, "first_page");
    assert Field(a, "last_page") == Field(b, "last_page");
  }

  /**
   A boolean part is true exactly when its text is `true` or `1` up to
   surrounding whitespace; every other text reads as false.
   */
  lemma FlagTruth(s: string)
    ensures IsTrueToken(Trim(s)) <==> PaddedToken(s, "true") || PaddedToken(s, "1")
  {
    TrimEqualsToken(s, "true");
    TrimEqualsToken(s, "1");
  }

  /**
   The effect of one part: the field it names (when its body is valid UTF-8)
   takes the value its text means, every other field keeps its value, and only
   a `file` part with a file name replaces the upload.
   */
  lemma ApplyPartEffect(f: Form, p: Part, parseZoom: string -> Option<string>, k: string)
    requires k in OptionNames
    ensures Field(ApplyPart(f, p, parseZoom).options, k)
         == if p.name == k && p.body.Utf8? then Meaning(k, p.body.text, parseZoom) else Field(f.options, k)
    ensures ApplyPart(f, p, parseZoom).upload
         == if p.name == "file" && p.filename.Some? then p.filename else f.upload
  {
    ApplyPartUpload(f, p, parseZoom);
    if p.name == k && p.body.Utf8? {
      ApplyPartSets(f, p, parseZoom);
    } else {
      ApplyPartKeeps(f, p, parseZoom, k);
    }
  }

  /** A valid option part sets the field it names to the meaning of its text. */
  lemma ApplyPartSets(f: Form, p: Part, parseZoom: string -> Option<string>)
    requires p.name in OptionNames && p.body.Utf8?
    ensures Field(ApplyPart(f, p, parseZoom).options, p.name) == Meaning(p.name, p.body.text, parseZoom)
  {
    if p.name in FlagNames {
      FlagTruth(p.body.text);
    }
  }

  /** Every field a part does not validly name keeps its value. */
  lemma ApplyPartKeeps(f: Form, p: Part, parseZoom: string -> Option<string>, k: string)
    requires k in OptionNames && !(p.name == k && p.body.Utf8?)
    ensures Field(ApplyPart(f, p, parseZoom).options, k) == Field(f.options, k)
  {
  }

  /** Only a `file` part with a file name replaces the upload. */
  lemma ApplyPartUpload(f: Form, p: Part, parseZoom: string -> Option<string>)
    ensures ApplyPart(f, p, parseZoom).upload
         == if p.name == "file" && p.filename.Some? then p.filename else f.upload
  {
  }

  /**
   Decoding is "last valid occurrence wins": each field holds the meaning of
   the last valid-UTF-8 part with its name, or its initial value when there is
   none; the upload is the last `file` part that carried a file name.
   */
  lemma {:induction false} DecodeLastWins(parts: seq<Part>, parseZoom: string -> Option<string>, k: string)
    requires k in OptionNames
    ensures Field(Decode(parts, parseZoom).options, k)
         == match LastText(parts, k)
            case None => Field(Initial, k)
            case Some(s) => Meaning(k, s, parseZoom)
    ensures Decode(parts, parseZoom).upload == LastUpload(parts)
  {
    if |parts| > 0 {
      var prefix := parts[..|parts| - 1];
      DecodeLastWins(prefix, parseZoom, k);
      ApplyPartEffect(Decode(prefix, parseZoom), parts[|parts| - 1], parseZoom, k);
    }
  }

  /**
   A numeric part whose trimmed text does not parse as a `u32` clears the
   field, whatever earlier parts had set it to.
   */
  lemma UnparsableNumberClears(f: Form, p: Part, parseZoom: string -> Option<string>)
    requires p.name in NumberNames && p.body.Utf8? && ParseU32(Trim(p.body.text)).None?
    ensures Field(ApplyPart(f, p, parseZoom).options, p.name) == Count(None)
  {
    ApplyPartEffect(f, p, parseZoom, p.name);
  }

  /** Parts with a name outside the form's vocabulary change nothing. */
  predicate Known(p: Part)
  {
    p.name == "file" || p.name in OptionNames
  }

  function KnownParts(parts: seq<Part>): (r: seq<Part>)
    ensures |r| <= |parts|
    ensures forall i | 0 <= i < |r| :: Known(r[i])
  {
    if |parts| == 0 then []
    else
      var p := parts[|parts| - 1];
      KnownParts(parts[..|parts| - 1]) + (if Known(p) then [p] else [])
  }

  /** Dropping every part with an unknown name does not change the outcome. */
  lemma {:induction false} UnknownPartsIgnored(parts: seq<Part>, parseZoom: string -> Option<string>)
    ensures Decode(KnownParts(parts), parseZoom) == Decode(parts, parseZoom)
  {
    if |parts| > 0 {
      var prefix := parts[..|parts| - 1];
      var p := parts[|parts| - 1];
      UnknownPartsIgnored(prefix, parseZoom);
      if Known(p) {
        var kp := KnownParts(prefix) + [p];
        assert kp[..|kp| - 1] == KnownParts(prefix);
      } else {
        assert KnownParts(parts) == KnownParts(prefix);
      }
    }
  }

  /** The value field `k` ends up with: the meaning of its last valid part, or its initial value. */
  ghost function Chosen(parts: seq<Part>, k: string, parseZoom: string -> Option<string>): (r: FieldValue)
    requires k in OptionNames
    ensures k == "zoom" ==> r.Token?
    ensures k in NumberNames ==> r.Count?
    ensures k in FlagNames ==> r.Flag?
  {
    match LastText(parts, k)
    case None => Field(Initial, k)
    case Some(s) => Meaning(k, s, parseZoom)
  }

  /**
   The form the decoder should produce, assembled field by field from the
   last valid part of each name and the last named `file` part, without
   replaying the loop.
   */
  ghost function Expected(parts: seq<Part>, parseZoom: string -> Option<string>): Form
  {
    Form(
      ConvertOptions(
        zoom := Chosen(parts, "zoom", parseZoom).z,
        fitWidth := Chosen(parts, "fit_width", parseZoom).n,
        fitHeight := Chosen(parts, "fit_height", parseZoom).n,
        embedCss := Chosen(parts, "embed_css", parseZoom).b,
        embedFont := Chosen(parts, "embed_font", parseZoom).b,
        embedImage := Chosen(parts, "embed_image", parseZoom).b,
        embedJavascript := Chosen(parts, "embed_javascript", parseZoom).b,
        splitPages := Chosen(parts, "split_pages", parseZoom).b,
        firstPage := Chosen(parts, "first_page", parseZoom).n,
        lastPage := Chosen(parts, "last_page", parseZoom).n),
      LastUpload(parts))
  }

  /** Each field of the expected record is the value chosen for it. */
  lemma ExpectedFields(parts: seq<Part>, parseZoom: string -> Option<string>, k: string)
    requires k in OptionNames
    ensures Field(Expected(parts, parseZoom).options, k) == Chosen(parts, k, parseZoom)
  {
  }

  /** The whole decoded form, options and upload together, is the expected one. */
  lemma DecodeIsExpected(parts: seq<Part>, parseZoom: string -> Option<string>)
    ensures Decode(parts, parseZoom) == Expected(parts, parseZoom)
  {
    var d := Decode(parts, parseZoom);
    var e := Expected(parts, parseZoom);
    forall k | k in OptionNames
      ensures Field(d.options, k) == Field(e.options, k)
    {
      DecodeLastWins(parts, parseZoom, k);
      ExpectedFields(parts, parseZoom, k);
    }
    FieldsDetermineOptions(d.options, e.options);
    DecodeLastWins(parts, parseZoom, "zoom");
  }

  /** A field that no valid part names keeps its initial value. */
  lemma {:induction false} UnsentFieldKeepsDefault(parts: seq<Part>, parseZoom: string -> Option<string>, k: string)
    requires k in OptionNames
    requires forall i | 0 <= i < |parts| :: parts[i].name == k ==> parts[i].body.NotUtf8?
    ensures Field(Decode(parts, parseZoom).options, k) == Field(Initial, k)
  {
    NoTextWhenUnsent(parts, k);
    DecodeLastWins(parts, parseZoom, k);
  }

  lemma {:induction false} NoTextWhenUnsent(parts: seq<Part>, k: string)
    requires forall i | 0 <= i < |parts| :: parts[i].name == k ==> parts[i].body.NotUtf8?
    ensures LastText(parts, k) == None
  {
    if |parts| > 0 {
      NoTextWhenUnsent(parts[..|parts| - 1], k);
    }
  }

  /** A body that is not valid UTF-8 leaves the form exactly as it was. */
  lemma InvalidUtf8Ignored(f: Form, p: Part, parseZoom: string -> Option<string>)
    requires p.name != "file" && p.body.NotUtf8?
    ensures ApplyPart(f, p, parseZoom) == f
  {
  }
}

=== FILE: response.dfy ===
/**
 The whole `convert_pdf` handler: the multipart payload is read to its end
 (aborting on the first broken chunk or failed staging write), the form is
 decoded, the converter is launched with the built arguments, and the reply is
 chosen from the launch result and from whether the expected page exists.
 */
module Response {
  import opened Common
  import opened Text
  import opened Options
  import opened Invocation
  import opened Artifact

  /** One item of the multipart stream: a complete part, or a transport error. */
  datatype Item = Received(part: Part) | Broken(reason: string)

  /**
   What launching `pdf2htmlEX` gave back: its exit status and its captured
   output (after `String::from_utf8_lossy`), or the error that kept it from
   starting.
   */
  datatype Launch = Launched(exitCode: int, stdout: string, stderr: string) | LaunchFailed(error: string)

  /** The JSON body `ConvertResponse`. */
  datatype ConvertResponse = ConvertResponse(
    success: bool,
    message: string,
    htmlUrl: Option<string>,
    filename: Option<string>)

  /**
   An HTTP reply: a JSON `ConvertResponse`, or the plain error text actix
   produces from `ErrorBadRequest` / `ErrorInternalServerError`.
   */
  datatype Reply = Json(status: nat, body: ConvertResponse) | ErrorText(status: nat, text: string)

  const StatusOk: nat := 200
  const StatusBadRequest: nat := 400
  const StatusInternalError: nat := 500

  const NoUploadMessage := "No PDF file uploaded"
  const SuccessMessage := "Conversion successful"
  const FailedPrefix := "Conversion failed. stderr: "
  const LaunchFailedPrefix := "Failed to execute pdf2htmlEX: "

  function Failure(status: nat, message: string): Reply
  {
    Json(status, ConvertResponse(false, message, None, None))
  }

  /**
   The error that ends the payload loop early, if any: a broken item is a
   bad request; a file part whose staging file cannot be created or written
   (`stagingError` of its path) is an internal error. Items are read in order.
   */
  function FirstAbort(items: seq<Item>, stagingError: string -> Option<string>): Option<Reply>
  {
    if |items| == 0 then None
    else match items[0]
      case Broken(reason) => Some(ErrorText(StatusBadRequest, reason))
      case Received(p) =>
        if p.name == "file" && p.filename.Some? && stagingError(StagedPath(p.filename.value)).Some? then
          Some(ErrorText(StatusInternalError, stagingError(StagedPath(p.filename.value)).value))
        else FirstAbort(items[1..], stagingError)
  }

  /** The parts of a payload, in order. */
  function PartsOf(items: seq<Item>): (r: seq<Part>)
    ensures |r| <= |items|
  {
    if |items| == 0 then []
    else (if items[0].Received? then [items[0].part] else []) + PartsOf(items[1..])
  }

  /**
   The arguments the converter is launched with, or `None` when the handler
   replies before launching it.
   */
  function ConverterArgs(items: seq<Item>, taskId: string, parseZoom: string -> Option<string>,
                         stagingError: string -> Option<string>): Option<seq<string>>
  {
    if FirstAbort(items, stagingError).Some? then None
    else
      var form := Decode(PartsOf(items), parseZoom);
      match form.upload
      case None => None
      case Some(name) => Some(BuildArgs(form.options, TaskOutputDir(taskId), StagedPath(name)))
  }

  /**
   The reply once the converter was launched: success exactly when the
   expected page exists (the exit status is not consulted).
   */
  function Classify(taskId: string, outputName: string, launch: Launch, produced: bool): Reply
  {
    match launch
    case LaunchFailed(e) => Failure(StatusInternalError, LaunchFailedPrefix + e)
    case Launched(_, out, err) =>
      if produced then
        Json(StatusOk, ConvertResponse(true, SuccessMessage, Some(HtmlUrl(taskId, outputName)), Some(outputName)))
      else
        Failure(StatusInternalError, FailedPrefix + err + " stdout: " + out)
  }

  /**
   `convert_pdf` for a fresh task id. `run` is the converter (arguments to
   launch result) and `present` tells which paths exist once it has finished
   and the staged upload has been removed.
   */
  function HandleConvert(items: seq<Item>, taskId: string, parseZoom: string -> Option<string>,
                         stagingError: string -> Option<string>,
                         run: seq<string> -> Launch, present: string -> bool): Reply
  {
    match FirstAbort(items, stagingError)
    case Some(reply) => reply
    case None =>
      var form := Decode(PartsOf(items), parseZoom);
      match form.upload
      case None => Failure(StatusBadRequest, NoUploadMessage)
      case Some(name) =>
        var outputName := OutputFilename(name);
        var args := BuildArgs(form.options, TaskOutputDir(taskId), StagedPath(name));
        Classify(taskId, outputName, run(args), present(ArtifactPath(taskId, outputName)))
  }

  /** The upload the handler stages and converts: the last `file` part that named a file. */
  function UploadOf(items: seq<Item>, parseZoom: string -> Option<string>): Option<string>
  {
    Decode(PartsOf(items), parseZoom).upload
  }

  /** The success flag, the status code and the presence of a URL agree in every reply. */
  predicate Coherent(r: Reply)
  {
    match r
    case ErrorText(status, _) => status != StatusOk
    case Json(status, body) =>
      (body.success <==> status == StatusOk)
      && (body.success <==> body.htmlUrl.Some?)
      && (body.success <==> body.filename.Some?)
  }

  // ---------------------------------------------------------------------------
  // Properties
  // ---------------------------------------------------------------------------

  /** The scan for an abort only looks at items; which parts follow it is irrelevant. */
  lemma {:induction false} AbortIsFirst(items: seq<Item>, stagingError: string -> Option<string>, i: nat)
    requires i < |items| && items[i].Broken?
    requires forall j | 0 <= j < i :: items[j].Received?
    requires forall j | 0 <= j < i :: var p := items[j].part;
               !(p.name == "file" && p.filename.Some? && stagingError(StagedPath(p.filename.value)).Some?)
    ensures FirstAbort(items, stagingError) == Some(ErrorText(StatusBadRequest, items[i].reason))
  {
    if i > 0 {
      AbortIsFirst(items[1..], stagingError, i - 1);
    }
  }

  /**
   A named `file` part whose staging file cannot be created or written ends
   the request with a 500 carrying the error, once every earlier item was clean.
   */
  lemma {:induction false} AbortOnStagingFailure(items: seq<Item>, stagingError: string -> Option<string>,
                                                 i: nat, e: string)
    requires i < |items| && items[i].Received?
    requires items[i].part.name == "file" && items[i].part.filename.Some?
    requires stagingError(StagedPath(items[i].part.filename.value)) == Some(e)
    requires forall j | 0 <= j < i :: items[j].Received?
    requires forall j | 0 <= j < i :: var p := items[j].part;
               !(p.name == "file" && p.filename.Some? && stagingError(StagedPath(p.filename.value)).Some?)
    ensures FirstAbort(items, stagingError) == Some(ErrorText(StatusInternalError, e))
  {
    if i > 0 {
      AbortOnStagingFailure(items[1..], stagingError, i - 1, e);
    }
  }

  /** With no transport error and no failed staging, the payload is read to its end. */
  lemma {:induction false} NoAbortWhenClean(items: seq<Item>, stagingError: string -> Option<string>)
    requires forall j | 0 <= j < |items| :: items[j].Received?
    requires forall j | 0 <= j < |items| && items[j].part.name == "file" && items[j].part.filename.Some? ::
               stagingError(StagedPath(items[j].part.filename.value)).None?
    ensures FirstAbort(items, stagingError) == None
    ensures PartsOf(items) == seq(|items|, j requires 0 <= j < |items| => items[j].part)
  {
    if |items| > 0 {
      NoAbortWhenClean(items[1..], stagingError);
    }
  }

  /** Every reply the handler can give is coherent. */
  lemma {:induction false} HandleCoherent(items: seq<Item>, taskId: string, parseZoom: string -> Option<string>,
                       stagingError: string -> Option<string>,
                       run: seq<string> -> Launch, present: string -> bool)
    ensures Coherent(HandleConvert(items, taskId, parseZoom, stagingError, run, present))
  {
    AbortIsError(items, stagingError);
  }

  lemma {:induction false} AbortIsError(items: seq<Item>, stagingError: string -> Option<string>)
    ensures FirstAbort(items, stagingError).Some? ==>
              FirstAbort(items, stagingError).value.ErrorText? && FirstAbort(items, stagingError).value.status != StatusOk
  {
    if |items| > 0 && items[0].Received? {
      AbortIsError(items[1..], stagingError);
    }
  }

  /**
   The handler succeeds exactly when the payload was read without error, a
   file was uploaded, the converter started, and the expected page exists;
   a success carries the derived file name and the URL that serves exactly
   the page whose existence was checked.
   */
  lemma SuccessIff(items: seq<Item>, taskId: string, parseZoom: string -> Option<string>,
                   stagingError: string -> Option<string>,
                   run: seq<string> -> Launch, present: string -> bool)
    ensures var r := HandleConvert(items, taskId, parseZoom, stagingError, run, present);
            var args := ConverterArgs(items, taskId, parseZoom, stagingError);
            var up := UploadOf(items, parseZoom);
            (r.Json? && r.body.success)
            <==> (args.Some? && up.Some? && run(args.value).Launched?
                  && present(ArtifactPath(taskId, OutputFilename(up.value))))
    ensures var r := HandleConvert(items, taskId, parseZoom, stagingError, run, present);
            var up := UploadOf(items, parseZoom);
            r.Json? && r.body.success ==>
              up.Some?
              && r.body.filename == Some(OutputFilename(up.value))
              && r.body.message == SuccessMessage
              && r.body.htmlUrl == Some("/output/" + taskId + "/" + OutputFilename(up.value))
              && ServedPath(r.body.htmlUrl.value) == Some(ArtifactPath(taskId, OutputFilename(up.value)))
  {
    var up := UploadOf(items, parseZoom);
    if up.Some? {
      UrlServesArtifact(taskId, OutputFilename(up.value));
    }
    AbortIsError(items, stagingError);
  }

  /**
   The converter is launched exactly when the payload was clean and named a
   file. When it is not launched, neither the converter nor the file system
   can influence the reply; when it is, the reply is the classification of
   what the converter did with exactly those arguments and of whether the
   page derived from the upload's name exists.
   */
  lemma LaunchedIff(items: seq<Item>, taskId: string, parseZoom: string -> Option<string>,
                    stagingError: string -> Option<string>,
                    run1: seq<string> -> Launch, run2: seq<string> -> Launch,
                    present1: string -> bool, present2: string -> bool)
    ensures ConverterArgs(items, taskId, parseZoom, stagingError).Some?
            <==> FirstAbort(items, stagingError).None? && UploadOf(items, parseZoom).Some?
    ensures ConverterArgs(items, taskId, parseZoom, stagingError).None? ==>
              HandleConvert(items, taskId, parseZoom, stagingError, run1, present1)
              == HandleConvert(items, taskId, parseZoom, stagingError, run2, present2)
    ensures var args := ConverterArgs(items, taskId, parseZoom, stagingError);
            var up := UploadOf(items, parseZoom);
            args.Some? ==>
              up.Some?
              && HandleConvert(items, taskId, parseZoom, stagingError, run1, present1)
                 == Classify(taskId, OutputFilename(up.value), run1(args.value),
                             present1(ArtifactPath(taskId, OutputFilename(up.value))))
  {
  }

  /**
   Without an upload the handler answers 400 "No PDF file uploaded" and the
   converter's behaviour cannot influence the reply.
   */
  lemma NoUploadRejected(items: seq<Item>, taskId: string, parseZoom: string -> Option<string>,
                         stagingError: string -> Option<string>,
                         run1: seq<string> -> Launch, run2: seq<string> -> Launch,
                         present1: string -> bool, present2: string -> bool)
    requires FirstAbort(items, stagingError).None? && UploadOf(items, parseZoom).None?
    ensures HandleConvert(items, taskId, parseZoom, stagingError, run1, present1)
         == HandleConvert(items, taskId, parseZoom, stagingError, run2, present2)
         == Json(StatusBadRequest, ConvertResponse(false, NoUploadMessage, None, None))
  {
  }

  /**
   The converter receives the task's output directory, the staged upload, and
   exactly the flags the decoded form asks for: reading its arguments back
   gives the decoded options' effective settings.
   */
  lemma {:induction false} ConverterSeesForm(items: seq<Item>, taskId: string, parseZoom: string -> Option<string>,
                          stagingError: string -> Option<string>)
    requires ConverterArgs(items, taskId, parseZoom, stagingError).Some?
    ensures UploadOf(items, parseZoom).Some?
    ensures ReadArgs(ConverterArgs(items, taskId, parseZoom, stagingError).value)
         == Some(Request(TaskOutputDir(taskId), StagedPath(UploadOf(items, parseZoom).value),
                         Effective(Decode(PartsOf(items), parseZoom).options)))
  {
    var form := Decode(PartsOf(items), parseZoom);
    ArgsRoundTrip(form.options, TaskOutputDir(taskId), StagedPath(form.upload.value));
  }

  /**
   The reply depends on the converter only through its result for the built
   arguments, and on the file system only through the expected page.
   */
  lemma ReplyDependsOnlyOnLaunch(items: seq<Item>, taskId: string, parseZoom: string -> Option<string>,
                                 stagingError: string -> Option<string>,
                                 run1: seq<string> -> Launch, run2: seq<string> -> Launch,
                                 present1: string -> bool, present2: string -> bool)
    requires ConverterArgs(items, taskId, parseZoom, stagingError).Some?
    requires var args := ConverterArgs(items, taskId, parseZoom, stagingError).value;
             run1(args) == run2(args)
    requires var path := ArtifactPath(taskId, OutputFilename(UploadOf(items, parseZoom).value));
             present1(path) == present2(path)
    ensures HandleConvert(items, taskId, parseZoom, stagingError, run1, present1)
         == HandleConvert(items, taskId, parseZoom, stagingError, run2, present2)
  {
  }

  /**
   Once the converter was launched, the reply succeeds exactly when it started
   and the expected page exists; a success is a 200 naming the page, every
   other outcome a 500 without URL or file name.
   */
  lemma ClassifyOutcome(taskId: string, outputName: string, launch: Launch, produced: bool)
    ensures var r := Classify(taskId, outputName, launch, produced);
            r.Json? && (r.body.success <==> launch.Launched? && produced)
    ensures var r := Classify(taskId, outputName, launch, produced);
            r.body.success ==> r.status == StatusOk && r.body.filename == Some(outputName)
                               && r.body.htmlUrl == Some(HtmlUrl(taskId, outputName))
    ensures var r := Classify(taskId, outputName, launch, produced);
            !r.body.success ==> r.status == StatusInternalError && r.body.htmlUrl == None && r.body.filename == None
  {
  }

  /** The converter's exit status is never consulted. */
  lemma ExitStatusIgnored(taskId: string, outputName: string, c1: int, c2: int,
                          out: string, err: string, produced: bool)
    ensures Classify(taskId, outputName, Launched(c1, out, err), produced)
         == Classify(taskId, outputName, Launched(c2, out, err), produced)
  {
  }

  /**
   A failed conversion reports the converter's stderr and stdout inside its
   message; a launch failure reports the launch error.
   */
  lemma FailureMessages(taskId: string, outputName: string, launch: Launch, produced: bool)
    ensures var r := Classify(taskId, outputName, launch, produced);
            launch.Launched? && !produced ==>
              r == Json(StatusInternalError, r.body) && !r.body.success
              && r.body.message == "Conversion failed. stderr: " + launch.stderr + " stdout: " + launch.stdout
              && Contains(r.body.message, launch.stderr) && Contains(r.body.message, launch.stdout)
    ensures var r := Classify(taskId, outputName, launch, produced);
            launch.LaunchFailed? ==>
              r == Json(StatusInternalError, r.body) && !r.body.success
              && r.body.message == "Failed to execute pdf2htmlEX: " + launch.error
  {
    if launch.Launched? && !produced {
      var m := FailedPrefix + launch.stderr + " stdout: " + launch.stdout;
      ContainsMiddle(FailedPrefix, launch.stderr, " stdout: " + launch.stdout);
      assert m == FailedPrefix + launch.stderr + (" stdout: " + launch.stdout);
      ContainsMiddle(FailedPrefix + launch.stderr + " stdout: ", launch.stdout, "");
      assert m == FailedPrefix + launch.stderr + " stdout: " + launch.stdout + "";
    }
  }

  /**
   The staging path depends only on the uploaded file's name: two tasks
   uploading the same name give the converter the same input path.
   */
  lemma StagingSharedAcrossTasks(items: seq<Item>, t1: string, t2: string, parseZoom: string -> Option<string>,
                                 stagingError: string -> Option<string>)
    requires ConverterArgs(items, t1, parseZoom, stagingError).Some?
    ensures ConverterArgs(items, t2, parseZoom, stagingError).Some?
    ensures ConverterArgs(items, t1, parseZoom, stagingError).value[2]
         == ConverterArgs(items, t2, parseZoom, stagingError).value[2]
         == StagedPath(UploadOf(items, parseZoom).value)
  {
    var form := Decode(PartsOf(items), parseZoom);
    ArgsHead(form.options, TaskOutputDir(t1), StagedPath(form.upload.value));
    ArgsHead(form.options, TaskOutputDir(t2), StagedPath(form.upload.value));
  }

  /**
   Removing the staged upload never removes the page: a sanitized name has no
   `/`, so the staging path is never an artifact path.
   */
  lemma StagedNeverArtifact(name: string, taskId: string, outputName: string)
    requires NoSlash(name)
    ensures StagedPath(name) != ArtifactPath(taskId, outputName)
  {
    var s := StagedPath(name);
    var a := ArtifactPath(taskId, outputName);
    var k := |UploadDir| + 1;
    if |s| == |a| {
      assert a[..k] == UploadDir + "/";
      assert a[k..k + 6] == "output";
      assert a[k + 6] == '/';
      assert s[k + 6] == name[6];
    }
  }
}

=== FILE: retention.dfy ===
/**
 The retention sweep of `cleanup_old_files`: every ten minutes, task
 directories in the output root and leftover files in the upload root whose
 age exceeds three hours (in whole seconds) are removed.
 */
module Retention {
  import opened Common

  const CleanupIntervalSecs: nat := 600
  const FileMaxAgeSecs: nat := 3 * 60 * 60
  const NanosPerSec: nat := 1_000_000_000

  /** A `SystemTime`, as nanoseconds from the Unix epoch. */
  type Instant = int

  /** What `Path::is_dir` / `Path::is_file` report for an entry. */
  datatype Kind = Directory | RegularFile | OtherKind

  /** The timestamps the platform reports; `None` where it cannot. */
  datatype Metadata = Metadata(created: Option<Instant>, modified: Option<Instant>)

  /**
   One item of `read_dir`: an entry that could not be read (dropped by
   `flatten`), or a path with its kind and, unless `metadata()` failed, its
   timestamps.
   */
  datatype DirEntry = Unreadable | Entry(path: string, kind: Kind, metadata: Option<Metadata>)

  datatype Listing = ListFailed | Listed(entries: seq<DirEntry>)

  /** The result of one `remove_dir_all`. */
  datatype Outcome = Removed(path: string) | RemoveFailed(path: string, error: string)

  /** What one pass did: the directory removals it attempted and the files it removed. */
  datatype Pass = Pass(dirs: seq<Outcome>, files: seq<string>)

  /**
   `now.duration_since(t)` followed by `as_secs`: whole seconds elapsed, or
   `None` when `t` lies in the future.
   */
  function AgeSecs(now: Instant, t: Instant): Option<nat>
  {
    if t <= now then Some((now - t) / NanosPerSec) else None
  }

  /** Strictly older than the retention limit. */
  predicate Stale(now: Instant, t: Instant)
  {
    match AgeSecs(now, t)
    case None => false
    case Some(secs) => secs > FileMaxAgeSecs
  }

  /** A task directory's age counts from its creation time, or its modification time when that is missing. */
  function DirStamp(m: Metadata): Option<Instant>
  {
    if m.created.Some? then m.created else m.modified
  }

  /** A task directory the output-root sweep removes at `now`. */
  predicate DirExpired(e: DirEntry, now: Instant)
  {
    e.Entry? && e.kind == Directory && e.metadata.Some?
    && DirStamp(e.metadata.value).Some? && Stale(now, DirStamp(e.metadata.value).value)
  }

  /** A leftover upload the upload-root sweep removes at `now`: modification time only. */
  predicate FileExpired(e: DirEntry, now: Instant)
  {
    e.Entry? && e.kind == RegularFile && e.metadata.Some?
    && e.metadata.value.modified.Some? && Stale(now, e.metadata.value.modified.value)
  }

  function EntriesOf(l: Listing): seq<DirEntry>
  {
    if l.Listed? then l.entries else []
  }

  /** The paths of the expired directories, in listing order. */
  function ExpiredDirs(entries: seq<DirEntry>, now: Instant): seq<string>
  {
    if |entries| == 0 then []
    else
      var e := entries[|entries| - 1];
      ExpiredDirs(entries[..|entries| - 1], now) + (if DirExpired(e, now) then [e.path] else [])
  }

  /** The paths of the expired files, in listing order. */
  function ExpiredFiles(entries: seq<DirEntry>, now: Instant): seq<string>
  {
    if |entries| == 0 then []
    else
      var e := entries[|entries| - 1];
      ExpiredFiles(entries[..|entries| - 1], now) + (if FileExpired(e, now) then [e.path] else [])
  }

  /** `remove_dir_all` of `path`, whose failure (`removeDir(path)`) is only logged. */
  function Attempt(path: string, removeDir: string -> Option<string>): Outcome
  {
    match removeDir(path)
    case None => Removed(path)
    case Some(err) => RemoveFailed(path, err)
  }

  /**
   The output-root half of a pass: every expired task directory is removed,
   in listing order; a failed removal is reported and the sweep goes on.
   */
  method SweepOutputRoot(listing: Listing, now: Instant, removeDir: string -> Option<string>)
    returns (outcomes: seq<Outcome>)
    ensures |outcomes| == |ExpiredDirs(EntriesOf(listing), now)|
    ensures forall i | 0 <= i < |outcomes| :: outcomes[i].path == ExpiredDirs(EntriesOf(listing), now)[i]
    ensures forall i | 0 <= i < |outcomes| ::
              outcomes[i].Removed? <==> removeDir(outcomes[i].path).None?
    ensures forall i | 0 <= i < |outcomes| && outcomes[i].RemoveFailed? ::
              removeDir(outcomes[i].path) == Some(outcomes[i].error)
  {
    outcomes := [];
    var entries := EntriesOf(listing);
    var i := 0;
    while i < |entries|
      invariant 0 <= i <= |entries|
      invariant |outcomes| == |ExpiredDirs(entries[..i], now)|
      invariant forall j | 0 <= j < |outcomes| :: outcomes[j] == Attempt(ExpiredDirs(entries[..i], now)[j], removeDir)
    {
      var e := entries[i];
      assert entries[..i + 1][..i] == entries[..i];
      if DirExpired(e, now) {
        outcomes := outcomes + [Attempt(e.path, removeDir)];
      }
      i := i + 1;
    }
    assert entries[..i] == entries;
  }

  /**
   The upload-root half of a pass: every expired regular file is removed, in
   listing order; the result of `remove_file` is ignored.
   */
  method SweepUploadRoot(listing: Listing, now: Instant) returns (removed: seq<string>)
    ensures removed == ExpiredFiles(EntriesOf(listing), now)
  {
    removed := [];
    var entries := EntriesOf(listing);
    var i := 0;
    while i < |entries|
      invariant 0 <= i <= |entries|
      invariant removed == ExpiredFiles(entries[..i], now)
    {
      var e := entries[i];
      if FileExpired(e, now) {
        removed := removed + [e.path];
      }
      assert entries[..i + 1][..i] == entries[..i];
      i := i + 1;
    }
    assert entries[..i] == entries;
  }

  /**
   One pass of the cleanup loop: the output root first, then the upload root.
   Each half reads the clock itself, so the upload root is judged at `nowUp`,
   taken after the output-root sweep has finished; `SystemTime` is not
   monotonic, so no order between the two instants is assumed.
   */
  method CleanupPass(output: Listing, uploads: Listing, nowOut: Instant, nowUp: Instant,
                     removeDir: string -> Option<string>)
    returns (pass: Pass)
    ensures |pass.dirs| == |ExpiredDirs(EntriesOf(output), nowOut)|
    ensures forall i | 0 <= i < |pass.dirs| :: pass.dirs[i].path == ExpiredDirs(EntriesOf(output), nowOut)[i]
    ensures pass.files == ExpiredFiles(EntriesOf(uploads), nowUp)
    ensures forall i | 0 <= i < |pass.dirs| :: pass.dirs[i].Removed? <==> removeDir(pass.dirs[i].path).None?
  {
    var dirs := SweepOutputRoot(output, nowOut, removeDir);
    var files := SweepUploadRoot(uploads, nowUp);
    pass := Pass(dirs, files);
  }

  /**
   The instants at which successive passes read the clock for the output root.
   The loop sleeps a full interval before each pass, and each sleep starts only
   once the previous pass has finished, so consecutive instants are at least
   one interval apart; `slack` bounds how much later than that a pass may come
   (the previous pass's own duration plus timer lateness).
   */
  predicate Schedule(times: seq<Instant>, start: Instant, slack: nat)
  {
    var step := CleanupIntervalSecs * NanosPerSec;
    && |times| > 0
    && start + step <= times[0] <= start + step + slack
    && (forall k | 0 < k < |times| :: times[k - 1] + step <= times[k] <= times[k - 1] + step + slack)
  }

  // ---------------------------------------------------------------------------
  // Properties
  // ---------------------------------------------------------------------------

  /**
   An item is stale exactly when at least 10801 seconds have passed: whole
   seconds must exceed 10800, and `as_secs` discards the fraction.
   */
  lemma StaleIff(now: Instant, t: Instant)
    ensures Stale(now, t) <==> now - t >= (FileMaxAgeSecs + 1) * NanosPerSec
  {
    if t <= now {
      var d := now - t;
      assert d / NanosPerSec > FileMaxAgeSecs <==> d >= (FileMaxAgeSecs + 1) * NanosPerSec;
    }
  }

  /** Exactly three hours, and anything short of a further whole second, is kept. */
  lemma ThresholdIsStrict(now: Instant)
    ensures !Stale(now, now - FileMaxAgeSecs * NanosPerSec)
    ensures !Stale(now, now - FileMaxAgeSecs * NanosPerSec - (NanosPerSec - 1))
    ensures Stale(now, now - (FileMaxAgeSecs + 1) * NanosPerSec)
  {
    StaleIff(now, now - FileMaxAgeSecs * NanosPerSec);
    StaleIff(now, now - FileMaxAgeSecs * NanosPerSec - (NanosPerSec - 1));
    StaleIff(now, now - (FileMaxAgeSecs + 1) * NanosPerSec);
  }

  /** A timestamp in the future is never stale. */
  lemma FutureKept(now: Instant, t: Instant)
    requires now < t
    ensures !Stale(now, t)
  {
  }

  /** Once stale, always stale: a later pass removes what an earlier one would have. */
  lemma StaleMonotone(now: Instant, later: Instant, t: Instant)
    requires now <= later && Stale(now, t)
    ensures Stale(later, t)
  {
    StaleIff(now, t);
    StaleIff(later, t);
  }

  /**
   A path is among the expired directories exactly when some listed entry at
   that path is an expired directory; nothing else is touched.
   */
  lemma {:induction false} ExpiredDirsExactly(entries: seq<DirEntry>, now: Instant, p: string)
    ensures p in ExpiredDirs(entries, now)
        <==> exists i | 0 <= i < |entries| :: DirExpired(entries[i], now) && entries[i].path == p
  {
    if |entries| > 0 {
      var prefix := entries[..|entries| - 1];
      ExpiredDirsExactly(prefix, now, p);
      if exists i | 0 <= i < |entries| :: DirExpired(entries[i], now) && entries[i].path == p {
        var i :| 0 <= i < |entries| && DirExpired(entries[i], now) && entries[i].path == p;
        if i < |prefix| {
          assert prefix[i] == entries[i];
        }
      }
      if p in ExpiredDirs(prefix, now) {
        var i :| 0 <= i < |prefix| && DirExpired(prefix[i], now) && prefix[i].path == p;
        assert entries[i] == prefix[i];
      }
    }
  }

  /**
   A path is among the removed uploads exactly when some listed entry at that
   path is an expired regular file.
   */
  lemma {:induction false} ExpiredFilesExactly(entries: seq<DirEntry>, now: Instant, p: string)
    ensures p in ExpiredFiles(entries, now)
        <==> exists i | 0 <= i < |entries| :: FileExpired(entries[i], now) && entries[i].path == p
  {
    if |entries| > 0 {
      var prefix := entries[..|entries| - 1];
      ExpiredFilesExactly(prefix, now, p);
      if exists i | 0 <= i < |entries| :: FileExpired(entries[i], now) && entries[i].path == p {
        var i :| 0 <= i < |entries| && FileExpired(entries[i], now) && entries[i].path == p;
        if i < |prefix| {
          assert prefix[i] == entries[i];
        }
      }
      if p in ExpiredFiles(prefix, now) {
        var i :| 0 <= i < |prefix| && FileExpired(prefix[i], now) && prefix[i].path == p;
        assert entries[i] == prefix[i];
      }
    }
  }

  /**
   The two sweeps never act on the same kind of entry: the output root only
   loses directories, the upload root only regular files.
   */
  lemma SweepsSeparateKinds(e: DirEntry, now: Instant)
    ensures DirExpired(e, now) ==> e.kind == Directory
    ensures FileExpired(e, now) ==> e.kind == RegularFile
    ensures !(DirExpired(e, now) && FileExpired(e, now))
  {
  }

  /**
   A directory's creation time decides when it has one, and its modification
   time otherwise; an upload's modification time decides, whatever its
   creation time.
   */
  lemma StampChoice(p: string, c: Instant, m1: Option<Instant>,
                    c1: Option<Instant>, m: Instant, now: Instant)
    ensures DirExpired(Entry(p, Directory, Some(Metadata(Some(c), m1))), now) <==> Stale(now, c)
    ensures DirExpired(Entry(p, Directory, Some(Metadata(None, Some(m)))), now) <==> Stale(now, m)
    ensures FileExpired(Entry(p, RegularFile, Some(Metadata(c1, Some(m)))), now) <==> Stale(now, m)
  {
  }

  /** Expiry only grows with time, so a later pass removes a superset. */
  lemma {:induction false} ExpiredDirsGrow(entries: seq<DirEntry>, now: Instant, later: Instant, p: string)
    requires now <= later && p in ExpiredDirs(entries, now)
    ensures p in ExpiredDirs(entries, later)
  {
    ExpiredDirsExactly(entries, now, p);
    var i :| 0 <= i < |entries| && DirExpired(entries[i], now) && entries[i].path == p;
    StaleMonotone(now, later, DirStamp(entries[i].metadata.value).value);
    ExpiredDirsExactly(entries, later, p);
  }

  /** However slow the sweeps, pass `k` reads the clock no earlier than `k + 1` intervals after the start. */
  lemma {:induction false} PassesSpaced(times: seq<Instant>, start: Instant, slack: nat, k: nat)
    requires Schedule(times, start, slack) && k < |times|
    ensures times[k] >= start + (k + 1) * CleanupIntervalSecs * NanosPerSec
  {
    if k > 0 {
      PassesSpaced(times, start, slack, k - 1);
    }
  }

  /**
   A task directory stamped `t` after the loop started is first removed by a
   pass that reads the clock less than 10801 seconds, one interval and the
   slack after `t`, and by no earlier pass. The schedule must run long enough
   for its last pass to see the stamp as stale.
   */
  lemma FirstRemovingPass(times: seq<Instant>, start: Instant, slack: nat, t: Instant) returns (n: nat)
    requires Schedule(times, start, slack) && start <= t
    requires Stale(times[|times| - 1], t)
    ensures n < |times| && Stale(times[n], t)
    ensures forall k | 0 <= k < n :: !Stale(times[k], t)
    ensures times[n] < t + ((FileMaxAgeSecs + 1) + CleanupIntervalSecs) * NanosPerSec + slack
  {
    n := 0;
    while !Stale(times[n], t)
      invariant n < |times|
      invariant forall k | 0 <= k < n :: !Stale(times[k], t)
      decreases |times| - n
    {
      n := n + 1;
    }
    if n > 0 {
      StaleIff(times[n - 1], t);
    }
  }
}

=== FILE: text.dfy ===
/**
 The string primitives the request handler relies on: Rust's `str::trim`,
 `u32::from_str`, `u32::to_string` and `str::replace`.
 */
module Text {
  import opened Common

  // ---------------------------------------------------------------------------
  // Whitespace and trim
  // ---------------------------------------------------------------------------

  /** Rust's `char::is_whitespace`: the Unicode White_Space property. */
  predicate IsWhitespace(c: char)
  {
    || ('\t' <= c <= '\r')
    || c == ' '
    || c == '\U{0085}'
    || c == '\U{00A0}'
    || c == '\U{1680}'
    || ('\U{2000}' <= c <= '\U{200A}')
    || c == '\U{2028}'
    || c == '\U{2029}'
    || c == '\U{202F}'
    || c == '\U{205F}'
    || c == '\U{3000}'
  }

  predicate AllWhitespace(s: string)
  {
    forall i :: 0 <= i < |s| ==> IsWhitespace(s[i])
  }

  /** Neither end of `t` is whitespace (vacuously true of the empty string). */
  predicate SolidEnds(t: string)
  {
    |t| == 0 || (!IsWhitespace(t[0]) && !IsWhitespace(t[|t| - 1]))
  }

  function TrimStart(s: string): string
  {
    if 0 < |s| && IsWhitespace(s[0]) then TrimStart(s[1..]) else s
  }

  function TrimEnd(s: string): string
  {
    if 0 < |s| && IsWhitespace(s[|s| - 1]) then TrimEnd(s[..|s| - 1]) else s
  }

  /** Rust's `str::trim`. */
  function Trim(s: string): string
  {
    TrimEnd(TrimStart(s))
  }

  /** `s` is `tok` surrounded by whitespace only. */
  ghost predicate PaddedToken(s: string, tok: string)
  {
    exists i, j | 0 <= i <= j <= |s| :: s[i..j] == tok && AllWhitespace(s[..i]) && AllWhitespace(s[j..])
  }

  lemma {:induction false} TrimStartBounds(s: string) returns (i: nat)
    ensures i <= |s| && TrimStart(s) == s[i..]
    ensures AllWhitespace(s[..i])
    ensures i < |s| ==> !IsWhitespace(s[i])
    decreases |s|
  {
    if 0 < |s| && IsWhitespace(s[0]) {
      var k := TrimStartBounds(s[1..]);
      i := k + 1;
      assert s[1..][k..] == s[i..];
      forall m | 0 <= m < i
        ensures IsWhitespace(s[..i][m])
      {
        if m > 0 {
          assert s[..i][m] == s[1..][..k][m - 1];
        }
      }
    } else {
      i := 0;
    }
  }

  lemma {:induction false} TrimEndBounds(s: string) returns (j: nat)
    ensures j <= |s| && TrimEnd(s) == s[..j]
    ensures AllWhitespace(s[j..])
    ensures 0 < j ==> !IsWhitespace(s[j - 1])
    decreases |s|
  {
    if 0 < |s| && IsWhitespace(s[|s| - 1]) {
      var p := s[..|s| - 1];
      j := TrimEndBounds(p);
      assert p[..j] == s[..j];
      forall m | j <= m < |s|
        ensures IsWhitespace(s[m])
      {
        if m < |s| - 1 {
          assert s[m] == p[j..][m - j];
        }
      }
    } else {
      j := |s|;
    }
  }

  /**
   Trim keeps exactly one contiguous slice of its input: what it drops on either
   side is whitespace, and what it keeps neither starts nor ends with whitespace.
   */
  lemma TrimBounds(s: string) returns (i: nat, j: nat)
    ensures i <= j <= |s| && Trim(s) == s[i..j]
    ensures AllWhitespace(s[..i]) && AllWhitespace(s[j..])
    ensures SolidEnds(Trim(s))
  {
    i := TrimStartBounds(s);
    var t := s[i..];
    var k := TrimEndBounds(t);
    j := i + k;
    assert t[..k] == s[i..j];
    assert t[k..] == s[j..];
    if i == j {
      forall m | 0 <= m < i
        ensures IsWhitespace(s[..i][m])
      {
      }
    }
  }

  lemma {:induction false} TrimStartSkips(w: string, rest: string)
    requires AllWhitespace(w)
    requires |rest| == 0 || !IsWhitespace(rest[0])
    ensures TrimStart(w + rest) == rest
    decreases |w|
  {
    if |w| > 0 {
      assert (w + rest)[1..] == w[1..] + rest;
      TrimStartSkips(w[1..], rest);
    } else {
      assert w + rest == rest;
    }
  }

  lemma {:induction false} TrimEndSkips(rest: string, w: string)
    requires AllWhitespace(w)
    requires |rest| == 0 || !IsWhitespace(rest[|rest| - 1])
    ensures TrimEnd(rest + w) == rest
    decreases |w|
  {
    if |w| > 0 {
      var w' := w[..|w| - 1];
      assert (rest + w)[..|rest + w| - 1] == rest + w';
      TrimEndSkips(rest, w');
    } else {
      assert rest + w == rest;
    }
  }

  /** Trimming a whitespace-padded token gives back the token. */
  lemma TrimPadded(w1: string, t: string, w2: string)
    requires AllWhitespace(w1) && AllWhitespace(w2) && SolidEnds(t)
    ensures Trim(w1 + t + w2) == t
  {
    if |t| == 0 {
      assert w1 + t + w2 == (w1 + w2) + [];
      TrimStartSkips(w1 + w2, []);
    } else {
      assert w1 + t + w2 == w1 + (t + w2);
      TrimStartSkips(w1, t + w2);
      TrimEndSkips(t, w2);
    }
  }

  /** The trimmed text of `s` is `tok` when `s` is `tok` padded by whitespace ... */
  lemma PaddedTrims(s: string, tok: string)
    requires SolidEnds(tok) && PaddedToken(s, tok)
    ensures Trim(s) == tok
  {
    var a, b :| 0 <= a <= b <= |s| && s[a..b] == tok && AllWhitespace(s[..a]) && AllWhitespace(s[b..]);
    var w1, w2 := s[..a], s[b..];
    assert s == w1 + tok + w2 by {
      assert s[..b] == w1 + tok;
      assert s == s[..b] + w2;
    }
    TrimPadded(w1, tok, w2);
  }

  /** ... and only then. */
  lemma TrimmedIsPadded(s: string)
    ensures PaddedToken(s, Trim(s))
  {
    var i, j := TrimBounds(s);
    assert s[i..j] == Trim(s);
  }

  /** For a token with solid ends, trimming yields it exactly when it is padded by whitespace. */
  lemma TrimEqualsToken(s: string, tok: string)
    requires SolidEnds(tok)
    ensures Trim(s) == tok <==> PaddedToken(s, tok)
  {
    TrimmedIsPadded(s);
    if PaddedToken(s, tok) {
      PaddedTrims(s, tok);
    }
  }

  // ---------------------------------------------------------------------------
  // Unsigned 32-bit integers: parse and display
  // ---------------------------------------------------------------------------

  const U32Max: nat := 0xFFFF_FFFF

  /** Rust's `u32`. */
  type U32 = n: nat | n <= U32Max

  predicate IsDigit(c: char)
  {
    '0' <= c <= '9'
  }

  predicate AllDigits(s: string)
  {
    forall i :: 0 <= i < |s| ==> IsDigit(s[i])
  }

  function DigitValue(c: char): nat
    requires IsDigit(c)
  {
    (c as int) - ('0' as int)
  }

  /** The number a string of decimal digits denotes (leading zeros allowed). */
  function DigitsValue(s: string): nat
    requires AllDigits(s)
  {
    if |s| == 0 then 0 else DigitsValue(s[..|s| - 1]) * 10 + DigitValue(s[|s| - 1])
  }

  /**
   Rust's `u32::from_str` (`parse::<u32>()`): an optional single leading `+`,
   then one or more ASCII digits whose value fits in 32 bits; anything else
   (empty text, a lone `+`, a `-`, any other character, overflow) is an error.
   */
  function ParseU32(s: string): (r: Option<U32>)
    ensures r.Some? ==> 0 < |s| && (IsDigit(s[0]) || s[0] == '+')
  {
    var digits := if 0 < |s| && s[0] == '+' then s[1..] else s;
    if |digits| == 0 || !AllDigits(digits) then None
    else if DigitsValue(digits) <= U32Max then Some(DigitsValue(digits))
    else None
  }

  /** Rust's `u32::to_string`: decimal digits without sign or leading zeros. */
  function Decimal(n: nat): string
  {
    if n < 10 then ["0123456789"[n]] else Decimal(n / 10) + ["0123456789"[n % 10]]
  }

  lemma {:induction false} DecimalDenotes(n: nat)
    ensures 0 < |Decimal(n)| && AllDigits(Decimal(n))
    ensures DigitsValue(Decimal(n)) == n
    ensures Decimal(n)[0] == '0' ==> n == 0
  {
    DigitChar(n % 10);
    if n >= 10 {
      DecimalDenotes(n / 10);
      var d := Decimal(n / 10);
      var s := Decimal(n);
      var c := "0123456789"[n % 10];
      assert s == d + [c];
      assert s[..|s| - 1] == d;
      assert DigitsValue(s) == DigitsValue(d) * 10 + DigitValue(c);
      assert s[0] == d[0];
    }
  }

  /** The digit character for `k` denotes `k`. */
  lemma DigitChar(k: nat)
    requires k < 10
    ensures IsDigit("0123456789"[k]) && DigitValue("0123456789"[k]) == k
  {
  }

  /** Displaying a `u32` and parsing it back gives the same number. */
  lemma ParseDecimal(n: U32)
    ensures ParseU32(Decimal(n)) == Some(n)
  {
    DecimalDenotes(n);
  }

  /**
   A character that is neither a digit nor the single leading `+` makes the
   parse fail; so do the empty text and a lone sign.
   */
  lemma ParseRejectsStray(s: string, k: nat)
    requires k < |s| && !IsDigit(s[k]) && !(k == 0 && s[k] == '+')
    ensures ParseU32(s) == None
  {
    if 0 < |s| && s[0] == '+' {
      assert s[1..][k - 1] == s[k];
    }
  }

  /** Worked cases: leading zeros and a `+` are accepted; an empty text, a lone `+` and a sign `-` are not. */
  lemma ParseU32Examples()
    ensures ParseU32("") == None && ParseU32("+") == None && ParseU32("-1") == None
    ensures ParseU32("+7") == Some(7) && ParseU32("007") == Some(7)
  {
    ParseRejectsStray("-1", 0);
    assert "+7"[1..] == "7";
    assert "007"[..2] == "00" && "00"[..1] == "0";
  }

  /** The accepted range is exactly 32 bits. */
  lemma ParseU32Range()
    ensures ParseU32("4294967295") == Some(U32Max)
    ensures ParseU32("4294967296") == None
  {
    var big := "4294967296";
    assert DigitsValue(big[..1]) == 4;
    assert big[..2][..1] == big[..1];
    assert DigitsValue(big[..2]) == 42;
    assert big[..3][..2] == big[..2];
    assert DigitsValue(big[..3]) == 429;
    assert big[..4][..3] == big[..3];
    assert DigitsValue(big[..4]) == 4294;
    assert big[..5][..4] == big[..4];
    assert DigitsValue(big[..5]) == 42949;
    assert big[..6][..5] == big[..5];
    assert DigitsValue(big[..6]) == 429496;
    assert big[..7][..6] == big[..6];
    assert DigitsValue(big[..7]) == 4294967;
    assert big[..8][..7] == big[..7];
    assert DigitsValue(big[..8]) == 42949672;
    assert big[..9][..8] == big[..8];
    assert DigitsValue(big[..9]) == 429496729;
    assert big[..10][..9] == big[..9];
    assert DigitsValue(big[..10]) == 4294967296;
    assert big[..10] == big;
    var max := "4294967295";
    assert max[..9] == big[..9];
    assert DigitsValue(max) == 4294967295;
  }

  // Replace-all
  // ---------------------------------------------------------------------------

  /**
   Rust's `str::replace(pat, rep)` for a non-empty pattern: scan left to right,
   replace each non-overlapping occurrence of `pat` by `rep`.
   */
  function ReplaceAll(s: string, pat: string, rep: string): string
    requires 0 < |pat|
    decreases |s|
  {
    if |s| < |pat| then s
    else if s[..|pat|] == pat then rep + ReplaceAll(s[|pat|..], pat, rep)
    else [s[0]] + ReplaceAll(s[1..], pat, rep)
  }

  /** A string that contains the pattern nowhere is left as it is. */
  lemma {:induction false} ReplaceAbsent(s: string, pat: string, rep: string)
    requires 0 < |pat| && !Contains(s, pat)
    ensures ReplaceAll(s, pat, rep) == s
    decreases |s|
  {
    if |s| >= |pat| {
      assert !OccursAt(s, pat, 0);
      NoOccurrenceInSuffix(s, pat, 1);
      ReplaceAbsent(s[1..], pat, rep);
    }
  }

  lemma NoOccurrenceInSuffix(s: string, p: string, k: nat)
    requires k <= |s| && !Contains(s, p)
    ensures !Contains(s[k..], p)
  {
    forall i | 0 <= i <= |s[k..]|
      ensures !OccursAt(s[k..], p, i)
    {
      assert !OccursAt(s, p, i + k);
      if i + |p| <= |s[k..]| {
        assert s[k..][i..i + |p|] == s[i + k..i + k + |p|];
      }
    }
  }

  /**
   A dot-led pattern: a `.` followed by characters none of which is a `.`,
   like `.pdf`, `.PDF` and `.html`.
   */
  predicate DotLed(p: string)
  {
    0 < |p| && p[0] == '.' && forall k :: 1 <= k < |p| ==> p[k] != '.'
  }

  /**
   Replacing dot-led text by dot-led text leaves any dot-free prefix of the
   result as it was in the input.
   */
  lemma {:induction false} DotFreePrefix(s: string, p: string, r: string, k: nat)
    requires DotLed(p) && DotLed(r)
    requires k <= |ReplaceAll(s, p, r)|
    requires forall m :: 0 <= m < k ==> ReplaceAll(s, p, r)[m] != '.'
    ensures k <= |s| && s[..k] == ReplaceAll(s, p, r)[..k]
    decreases |s|
  {
    var out := ReplaceAll(s, p, r);
    if k > 0 && |s| >= |p| {
      assert out[0] != '.';
      assert s[..|p|] != p;
      var rest := ReplaceAll(s[1..], p, r);
      assert out == [s[0]] + rest;
      forall m | 0 <= m < k - 1
        ensures rest[m] != '.'
      {
        assert rest[m] == out[m + 1];
      }
      DotFreePrefix(s[1..], p, r, k - 1);
      assert s[..k] == [s[0]] + s[1..][..k - 1];
      assert out[..k] == [s[0]] + rest[..k - 1];
    }
  }

  /**
   When the input does not start with `p`, the output keeps the input's first
   character, so a dot-led `q` can start the output only if it starts the input.
   */
  lemma HeadMatchesInput(s: string, p: string, q: string, r: string)
    requires DotLed(p) && DotLed(q) && DotLed(r)
    requires |p| <= |s| && s[..|p|] != p
    ensures OccursAt(ReplaceAll(s, p, r), q, 0) ==> OccursAt(s, q, 0)
  {
    var out := ReplaceAll(s, p, r);
    var rest := ReplaceAll(s[1..], p, r);
    assert out == [s[0]] + rest;
    if OccursAt(out, q, 0) {
      forall m | 0 <= m < |q| - 1
        ensures rest[m] != '.'
      {
        assert rest[m] == out[m + 1] == q[m + 1];
      }
      DotFreePrefix(s[1..], p, r, |q| - 1);
      assert s[..|q|] == [s[0]] + s[1..][..|q| - 1];
      assert out[..|q|] == [s[0]] + rest[..|q| - 1];
    }
  }

  /** After replacing `p` everywhere, `p` occurs nowhere in the result. */
  lemma {:induction false} ReplaceRemoves(s: string, p: string, r: string)
    requires DotLed(p) && DotLed(r) && |p| <= |r| && r[..|p|] != p
    ensures !Contains(ReplaceAll(s, p, r), p)
    decreases |s|
  {
    if |s| >= |p| {
      if s[..|p|] == p {
        ReplaceRemoves(s[|p|..], p, r);
        AbsentAfterLead(r, ReplaceAll(s[|p|..], p, r), p);
      } else {
        ReplaceRemoves(s[1..], p, r);
        HeadMatchesInput(s, p, p, r);
        AbsentAfterHead(s[0], ReplaceAll(s[1..], p, r), p);
      }
    } else {
      forall i | 0 <= i <= |s|
        ensures !OccursAt(s, p, i)
      {
      }
    }
  }

  /** Replacing `p` introduces no occurrence of a dot-led `q` that was absent. */
  lemma {:induction false} ReplaceKeepsAbsent(s: string, p: string, q: string, r: string)
    requires DotLed(p) && DotLed(q) && DotLed(r) && |q| <= |r| && r[..|q|] != q
    requires !Contains(s, q)
    ensures !Contains(ReplaceAll(s, p, r), q)
    decreases |s|
  {
    if |s| >= |p| {
      if s[..|p|] == p {
        NoOccurrenceInSuffix(s, q, |p|);
        ReplaceKeepsAbsent(s[|p|..], p, q, r);
        AbsentAfterLead(r, ReplaceAll(s[|p|..], p, r), q);
      } else {
        NoOccurrenceInSuffix(s, q, 1);
        ReplaceKeepsAbsent(s[1..], p, q, r);
        HeadMatchesInput(s, p, q, r);
        assert !OccursAt(s, q, 0);
        AbsentAfterHead(s[0], ReplaceAll(s[1..], p, r), q);
      }
    }
  }

  /** `[c] + rest` contains `q` only at its head or inside `rest`. */
  lemma AbsentAfterHead(c: char, rest: string, q: string)
    requires 0 < |q| && !Contains(rest, q) && !OccursAt([c] + rest, q, 0)
    ensures !Contains([c] + rest, q)
  {
    var out := [c] + rest;
    forall i | 1 <= i <= |out|
      ensures !OccursAt(out, q, i)
    {
      assert !OccursAt(rest, q, i - 1);
      if i + |q| <= |out| {
        assert out[i..i + |q|] == rest[i - 1..i - 1 + |q|];
      }
    }
  }

  /**
   `lead + rest` does not contain a dot-led `q` when `lead` is dot-led, does not
   start with `q`, and `rest` does not contain `q`.
   */
  lemma AbsentAfterLead(lead: string, rest: string, q: string)
    requires DotLed(lead) && DotLed(q) && |q| <= |lead| && lead[..|q|] != q
    requires !Contains(rest, q)
    ensures !Contains(lead + rest, q)
  {
    var out := lead + rest;
    forall i | 0 <= i <= |out|
      ensures !OccursAt(out, q, i)
    {
      if i == 0 {
        assert out[..|q|] == lead[..|q|];
      } else if i < |lead| {
        assert out[i] == lead[i] != '.';
      } else {
        assert !OccursAt(rest, q, i - |lead|);
        if i + |q| <= |out| {
          assert out[i..i + |q|] == rest[i - |lead|..i - |lead| + |q|];
        }
      }
    }
  }
}
